=== FILE: README.md ===
# NYC vehicle-collision dashboard: the Sankey pipeline, modelled in Dafny

The dashboard shows New York City motor-vehicle collisions on a map, in a histogram and in a
Sankey diagram. This project models its data pipeline as pure functions over immutable data and
proves what each step promises:

- **Hour bucketing.** A crash time `"h:m"` becomes the hour range `"h-(h+1 mod 24)"`. The hour
  text is kept as written.
- **Filtering.** Records are kept when their crash year is in an inclusive range and, if any
  boroughs are named, their borough is one of them.
- **Distinct labels.** A column's distinct values, in order of first appearance.
- **Grouping and ranking.** Records are counted per tuple of values in the selected columns. The
  groups are sorted by descending count and the ten largest are kept.
- **Sankey assembly.** Each adjacent pair of columns is stacked into weighted edges. The sorted,
  repeat-free label list is built, and each edge endpoint is replaced by its label's index.
- **Per-borough crash counts** shown on the map.
- **The dashboard callbacks' guards.** Fewer than two selected columns gives a prompt instead of a
  diagram. A single borough selection is wrapped into a list.

Modules, one file each:

| file | module | models |
|---|---|---|
| `results.dfy` | `Results` | `Option`, `Result` and the `Error` values standing for the Python exceptions the code can raise |
| `strings.dfy` | `Strings` | Python's string order, `str(int)` and `int(str)` |
| `seqs.dfy` | `Seqs` | boolean-mask filtering, `unique()`, first-occurrence lookup, occurrence counting |
| `frames.dfy` | `Frames` | data frames as a header over rows of cells; column lookup; `astype(str)` |
| `open_data_api.dfy` | `OpenDataApi` | `NYC_OpenData_API.py`: time bucketing, unique labels, filtering |
| `sankey.dfy` | `Sankey` | `sankey.py`: `_stack_cols`, `_code_mapping`, `make_sankey` |
| `collision_dash.dfy` | `CollisionDash` | `NYC_Collision_Dash.py`: `generate_sankey` data steps, `generate_nyc_map` counts and `generate_hist` inputs |
| `dashboard.dfy` | `Dashboard` | `main.py`: the callbacks `update_sankey_diagram`, `update_nyc_map`, `update_histogram` |

How the data is represented:

- A data frame is a header of column names over rows of `Cell`s. A cell is `Missing` (NaN), a
  `Text`, or an integer `Number`.
- Each collision record also carries its crash year as an integer, already extracted from the
  crash date.
- An exception is an `Err` value. Each `Error` variant names the exception it stands for:
  - a `KeyError` for an unknown column;
  - the `ValueError`s of `groupby([])`, of `reset_index` on a clashing name, and of unpacking
    `split(':')`;
  - the `KeyError` on `stacked['vals']` when fewer than two columns are stacked;
  - the `IndexError` of a year selection with fewer than two entries;
  - the `ValueError` Plotly Express raises when a plotted column is missing.
- Title-casing (`str.title`) is passed in as a function, because its Unicode rules are not modelled.

Behaviour of the code worth noting:

- `_convert_time_to_range` keeps the hour text as written, so `"03:12"` becomes `"03-4"`.
- Any integer hour text is accepted; only the end of the range is reduced mod 24.
- The minute is split off and never used.
- `generate_sankey` keeps `head(10)`, although the comment beside it says 20.
- `sort_values` uses pandas' default sort, which is not stable, so the order of groups with
  equal counts is not fixed by the code.

## Model

| member | source | states |
|---|---|---|
| Strings.LessIrreflexive | sankey.py:38 | no label sorts before itself |
| Strings.LessTransitive | sankey.py:38 | Python's string order used by `sorted` is transitive |
| Strings.LessAsymmetric | sankey.py:38 | two labels are never each sorted before the other |
| Strings.LessTotal | sankey.py:38 | any two different labels are ordered one way or the other, so `sorted` has one answer |
| Strings.NatToString | NYC_OpenData_API.py:105 | `str` of a non-negative integer is a non-empty string of decimal digits: `"0"` for zero, and no leading zero otherwise |
| Strings.IntToString | sankey.py:16 | `str` of any integer: a minus sign exactly for negatives, followed by digits with no leading zero; only zero itself starts with `0` |
| Strings.ParseInt | NYC_OpenData_API.py:104 | `int()` accepts exactly an optional sign followed by one or more decimal digits, and gives a negative value only after `-` |
| Strings.DigitsRoundTrip | NYC_OpenData_API.py:104-105 | the digits `str` writes for a natural number read back as that number |
| Strings.NatRoundTrip | NYC_OpenData_API.py:104-105 | `int(str(n)) == n` for every natural number |
| Strings.IntRoundTrip | sankey.py:16 | `int(str(n)) == n` for every integer, so an integer cell's label determines it |
| Strings.DigitsLeadingZero | NYC_OpenData_API.py:104 | a zero written before a digit string leaves its value unchanged |
| Strings.ParseIntLeadingZero | NYC_OpenData_API.py:104 | `int("0" + s) == int(s)` for every digit string, so `int("007") == 7` |
| Strings.ParseIntPlus | NYC_OpenData_API.py:104 | `int("+" + s) == int(s)` for every digit string |
| Strings.ParseIntMinus | NYC_OpenData_API.py:104 | `int("-" + s) == -int(s)` for every digit string; with the two lemmas above and `IntRoundTrip` this fixes the value of every accepted literal |
| Seqs.Filter | NYC_OpenData_API.py:145-148 | a boolean mask keeps only elements that pass, each taken from the input |
| Seqs.FilterMultiplicity | NYC_OpenData_API.py:145 | a mask keeps every occurrence of a passing value and none of a failing one |
| Seqs.FilterIsSubseq | NYC_OpenData_API.py:145-148 | a mask keeps the input order: the result is a subsequence |
| Seqs.FilterIdempotent | NYC_OpenData_API.py:145-148 | applying the same mask twice is applying it once |
| Seqs.FilterThenFilter | NYC_OpenData_API.py:145-148 | a mask followed by a second mask is the mask of the conjunction |
| Seqs.Dedup | NYC_OpenData_API.py:125 | `unique()`: no repeats, exactly the input's values, ordered by first appearance |
| Seqs.FirstAppearancesExact | NYC_OpenData_API.py:125 | a position is a first appearance, listed by `FirstAppearances`, exactly when its value does not occur earlier |
| Seqs.FirstAppearancesIncreasing | NYC_OpenData_API.py:125 | the first-appearance positions are listed in increasing order |
| Seqs.DedupAtFirstAppearances | NYC_OpenData_API.py:125 | `unique()` lists exactly the values at the first-appearance positions, in that order |
| Seqs.OccurrencesOfDistinct | NYC_Collision_Dash.py:21-25 | counting each of several distinct values separately counts each element in them once |
| Frames.Label | sankey.py:16 | `astype(str)`: a missing value shows as `nan`, a string as itself, an integer as non-empty text that is never `nan` |
| Frames.LabelFaithful | sankey.py:16 | under `astype(str)` an integer cell's text reads back as the integer |
| Frames.ColumnIndex | sankey.py:20 | a column name resolves to a position holding it, and an unknown name is the `KeyError` |
| Frames.ColumnIndices | sankey.py:20 | a list of names resolves only if all are present; otherwise the error names a missing one |
| Frames.ColumnIndexOfDistinct | sankey.py:20 | in a header without repeats each name resolves to its own position |
| OpenDataApi.SplitTime | NYC_OpenData_API.py:102 | unpacking `split(':')` into two names succeeds exactly when there is one colon, and the parts rejoin to the input |
| OpenDataApi.SplitTimeOfParts | NYC_OpenData_API.py:102 | splitting `hour + ':' + minute` gives back the hour and the minute |
| OpenDataApi.ConvertTimeToRange | NYC_OpenData_API.py:97-105 | a time without exactly one colon is an error |
| OpenDataApi.TimeRangeOfParts | NYC_OpenData_API.py:102-105 | the bucket is the hour text verbatim, `-`, then the digits of (hour + 1) mod 24, which read back as a value in 0..23; a non-integer hour is an error |
| OpenDataApi.TimeRangeOfHour | NYC_OpenData_API.py:102-105 | a time whose hour reads as h becomes the hour text verbatim, `-`, then the digits of (h + 1) mod 24 |
| OpenDataApi.TimeRangeOfLastHour | NYC_OpenData_API.py:104-105 | any hour text reading as 23 ends its bucket in `-0` |
| OpenDataApi.TimeRangeIgnoresMinute | NYC_OpenData_API.py:102-105 | the minute never changes the bucket |
| OpenDataApi.TimeRangeWrapsAtMidnight | NYC_OpenData_API.py:104-105 | hour 23 gives `"23-0"` |
| OpenDataApi.TimeRangeKeepsHourText | NYC_OpenData_API.py:103-105 | `"03:m"` gives `"03-4"`: a leading zero is kept |
| Results.MapResults | NYC_OpenData_API.py:115 | an element-wise map succeeds exactly when every element does, giving one result per element in order; otherwise the error is the first failing element's |
| OpenDataApi.BucketCells | NYC_OpenData_API.py:115 | `apply` succeeds only if every cell buckets; the result has one bucket per cell in order; a failure is the exception of the first cell that fails |
| OpenDataApi.ConvertTimeColToRanges | NYC_OpenData_API.py:108-115 | the buckets of the named column, same length and order; an unknown column is an error, and otherwise a failure is the exception of the first row whose cell fails to bucket |
| OpenDataApi.FormatLabel | NYC_OpenData_API.py:127 | a string value is title-cased; any other value, missing or integer, shows as `'None'` |
| OpenDataApi.DistinctLabels | NYC_OpenData_API.py:125-127 | entry i is the label of `unique()`'s i-th value: one label per distinct value, and every value's label is among them |
| OpenDataApi.DistinctLabelsInAppearanceOrder | NYC_OpenData_API.py:125-127 | entry k is the label of the value at the k-th first-appearance position, so values that share a label keep their own places |
| OpenDataApi.FetchUniqueLabels | NYC_OpenData_API.py:118-128 | the distinct labels of the named column; an unknown column is an error |
| OpenDataApi.FilterByYearAndBorough | NYC_OpenData_API.py:131-150 | every kept record has a year in [start, end] and, when boroughs are named, one of those boroughs; with no boroughs only the year applies; a missing borough column is an error only when boroughs are named |
| OpenDataApi.FilterKeepsExactlySelected | NYC_OpenData_API.py:145-148 | every record meeting the criteria is kept as often as it occurs, and no other record is kept |
| OpenDataApi.FilterKeepsOrder | NYC_OpenData_API.py:145-148 | the kept records are a subsequence of the input |
| OpenDataApi.FilterByYearAndBoroughIdempotent | NYC_OpenData_API.py:145-148 | filtering the result again with the same arguments returns it unchanged |
| Sankey.Stage | sankey.py:20-24 | one edge per row of the frame; `StageAt` gives each edge |
| Sankey.StageAt | sankey.py:20-24 | edge r of a stage runs from row r's text in the first column to its text in the second, with row r's weight |
| Sankey.StagesLength | sankey.py:19-27 | k columns over n rows give (k - 1) * n edges |
| Sankey.OffsetIsProduct | sankey.py:27 | stage i starts after i blocks of n edges, at i * n |
| Sankey.StagesAt | sankey.py:19-27 | the edge at Offset(i, n) + r, which is i * n + r by `OffsetIsProduct`, joins row r's text in column i to its text in column i + 1 |
| Sankey.StackCols | sankey.py:5-31 | fewer than two columns is the `stacked['vals']` error; otherwise (k - 1) * n edges with the weight list matching the edges |
| Sankey.StackColsEdgeAt | sankey.py:19-27 | edge Offset(i, n) + r (that is, i * n + r) carries row r's texts in columns i and i + 1 and row r's weight; equal pairs from different rows stay separate edges |
| Sankey.StackColsRepeatsWeights | sankey.py:24-30 | the value list is the row weights repeated once per stage |
| Sankey.InsertLabel | sankey.py:38 | adding a label to a sorted repeat-free list keeps it sorted and repeat-free, with exactly one more element value |
| Sankey.SortedLabels | sankey.py:38 | `sorted(set(xs))` is strictly increasing and has exactly the values of `xs` |
| Sankey.SortedUnique | sankey.py:38 | two strictly increasing lists with the same values are equal |
| Sankey.Endpoints | sankey.py:38 | the concatenated src and targ lists hold exactly the labels of some edge end |
| Sankey.CodeMapping | sankey.py:34-49 | labels strictly increasing and exactly the edge ends; each recoded endpoint indexes its own label |
| Sankey.CodesIdentifyLabels | sankey.py:41-47 | two endpoints share an index exactly when they share a label, across stages too |
| Sankey.CodesContiguous | sankey.py:41-47 | every index 0..N-1 is used by some endpoint |
| Sankey.LabelsOrderIndependent | sankey.py:38 | the node list depends only on which labels occur |
| Sankey.RowWeights | sankey.py:62-65 | with no weight column every weight is 1; otherwise the weights are the named column, and an unknown name is an error |
| Sankey.MakeSankey | sankey.py:52-81 | succeeds exactly when the weight column and at least two stacked columns exist; equal-length link lists of (k - 1) * n links; indices within the sorted node list; unweighted links all weigh 1 |
| Sankey.MakeSankeyNodesUsed | sankey.py:38-47 | every node is the source or the target of some link, so with the in-range indices the node list is exactly the set of link endpoints |
| Sankey.MakeSankeyLinkAt | sankey.py:62-75 | link Offset(i, n) + r, which is i * n + r by `OffsetIsProduct`, goes from the node of row r's text in column i to that of column i + 1, with row r's weight |
| CollisionDash.KeyCountIsRowCount | NYC_Collision_Dash.py:104 | how often a key occurs among the rows' key tuples is the number of records holding that key in the columns |
| CollisionDash.RowHasKeyIsKeyOf | NYC_Collision_Dash.py:104 | a record belongs to a group exactly when its values in the grouped columns are that group's key |
| CollisionDash.AggregateCounts | NYC_Collision_Dash.py:104-107 | every kept group's key spans the grouped columns, and its count is the number of records holding that key |
| CollisionDash.GroupSizes | NYC_Collision_Dash.py:104 | `groupby(cols).size()`: distinct keys, none with a missing value, each with its row count of at least 1; every complete key forms a group |
| CollisionDash.InsertByCount | NYC_Collision_Dash.py:107 | inserting into a list ranked by descending count keeps it ranked and adds exactly that group |
| CollisionDash.SortByCount | NYC_Collision_Dash.py:107 | `sort_values(ascending=False)` is a rearrangement with non-increasing counts |
| CollisionDash.TopGroupsOf | NYC_Collision_Dash.py:107 | `sort_values(...).head(10)`: exactly min(10, number of groups) groups, in non-increasing count order |
| CollisionDash.TopGroupsRanked | NYC_Collision_Dash.py:104-107 | the kept groups number at most 10, are non-increasing, distinct, complete and correctly counted |
| CollisionDash.TopGroupsOmitOnlySmaller | NYC_Collision_Dash.py:107 | a key left out means all 10 places are taken by keys at least as frequent |
| CollisionDash.TopGroupsCountsBounded | NYC_Collision_Dash.py:104-107 | the kept counts add up to at most the number of rows |
| CollisionDash.Aggregate | NYC_Collision_Dash.py:104-107 | no columns and an unknown column are errors; otherwise at most 10 distinct complete keys, counts non-increasing, each count at least 1 and equal to the number of records holding that key |
| CollisionDash.AggregateOmitsOnlySmaller | NYC_Collision_Dash.py:104-107 | a complete key held by some record but not kept is held by no more records than the smallest kept group, and all 10 places are taken |
| CollisionDash.AggregateCountsBounded | NYC_Collision_Dash.py:104-107 | the kept counts add up to at most the number of filtered records |
| CollisionDash.GroupedTable | NYC_Collision_Dash.py:104 | `reset_index(name='count')`: the key columns then `count`; row g is group g's key followed by its count |
| CollisionDash.GenerateSankey | NYC_Collision_Dash.py:100-111 | succeeds exactly when the borough column (if needed) and all of at least two columns exist and `count` clashes with no column name; sorted labels, equal-length lists, indices in range |
| CollisionDash.GenerateSankeyLinkAt | NYC_Collision_Dash.py:104-109 | link Offset(i, g) + j, which is i * g + j, joins kept group j's value in column i to its value in column i + 1, weighted by the number of filtered records in that group |
| CollisionDash.GroupedTableLinkAt | NYC_Collision_Dash.py:107-109 | in the diagram built from the ranked groups, link Offset(i, |groups|) + g between columns i and i + 1 joins its two key values and carries its count |
| CollisionDash.GroupedLinkAt | NYC_Collision_Dash.py:109 | the grouped counts are used as the Sankey edge weights |
| CollisionDash.GenerateSankeyNodesUsed | NYC_Collision_Dash.py:109 | every node of the collision diagram is the source or the target of some link |
| CollisionDash.GenerateSankeySize | NYC_Collision_Dash.py:107-109 | at most 10 groups, and (k - 1) links per group |
| CollisionDash.CrashesIn | NYC_Collision_Dash.py:24 | a borough's count never exceeds the number of records |
| CollisionDash.BoroughCounts | NYC_Collision_Dash.py:22-25 | one dictionary entry per named borough, holding the number of records in it |
| CollisionDash.CountOf | NYC_Collision_Dash.py:64 | `.get(borough, 0)`: the stored count of a borough in the dictionary, and 0 for any other |
| CollisionDash.BoroughAnnotations | NYC_Collision_Dash.py:63-66 | one annotation per named borough, in order, reading "borough: count", with a default of 0 |
| CollisionDash.GenerateNycMap | NYC_Collision_Dash.py:18-86 | the total is the number of filtered records, and each named borough's entry is the number of filtered records whose borough cell names it; one annotation per borough, then "Total Collisions: n"; a missing borough column (when boroughs are named) or a missing plotted column is an error |
| CollisionDash.CrashesInIsCount | NYC_Collision_Dash.py:24 | the filter-and-count equals the borough's multiplicity in the borough column |
| CollisionDash.BoroughCountsAreMultiplicities | NYC_Collision_Dash.py:22-25 | each borough's dictionary entry is how often its name fills the borough column |
| CollisionDash.SumShownIsOccurrences | NYC_Collision_Dash.py:64 | the counts shown add up to the occurrences of the named boroughs |
| CollisionDash.BoroughCountsPartitionTotal | NYC_Collision_Dash.py:21-25 | with distinct boroughs named, the per-borough counts add up to the total |
| CollisionDash.AbsentBoroughCountsZero | NYC_Collision_Dash.py:21-25 | a named borough whose name is in no filtered record's borough cell reads as 0 |
| Dashboard.NormaliseBoroughs | main.py:131-132 | a single borough becomes a one-element list; a list passes through |
| Dashboard.NormaliseIdempotent | main.py:131-132 | wrapping an already normalised selection changes nothing |
| Dashboard.SelectMoreFigure | main.py:159-170 | the prompt has no traces, hidden axes and exactly one annotation with the prompt text |
| Dashboard.UpdateSankeyDiagram | main.py:154-176 | fewer than two columns gives the prompt whatever the data; with two or more, any success is a diagram, and it is exactly `generate_sankey` of the normalised boroughs and the first two slider years |
| Dashboard.PromptIgnoresSelection | main.py:158-170 | the prompt depends on nothing but the column count |
| Dashboard.UpdateNycMap | main.py:131-136 | the map counts of the normalised boroughs and the first two slider years, over the `latitude` and `longitude` columns |
| Dashboard.SingleBoroughCountIsTotal | main.py:131-136 | a single selected borough's count is the total |
| CollisionDash.GenerateHist | NYC_Collision_Dash.py:112-131 | exactly the filtered records, plotted over the given columns; a missing borough column (when boroughs are named) or a missing plotted column is an error |
| Dashboard.UpdateHistogram | main.py:191-197 | `generate_hist` of the two casualty columns, the normalised boroughs and the first two slider years |
| Dashboard.HistogramMatchesMap | main.py:131-136 | for one selection the histogram plots as many records as the map's total, each of them selected |

## Left out

- HTTP fetching and CSV parsing (`_fetch_response`, `fetch_data`): network I/O and a foreign library.
- `process_strings` (its `title` and `strip`, NYC_OpenData_API.py:93) and the `title` that `fetch_unique_labels` applies to string values (NYC_OpenData_API.py:127): Unicode case and whitespace rules. Title-casing is a function parameter.
- `pd.to_datetime` and the `crash_year` column: every record carries its year as an integer. The filter is modelled as pure, although the source also writes `crash_date` and `crash_year` into the caller's frame.
- The Dash layout, widgets, callback registration and `run_server`: UI plumbing.
- Plotly figures (`go.Sankey`, `go.Figure`, `px.scatter_mapbox`, `px.histogram`), styling, and the floating-point annotation positions: rendering. Only the link/node lists, the annotation texts and font sizes, the histogram's inputs, and the check that every plotted column exists are modelled.
- CollisionDash.GenerateNycMap: when several plotted columns are missing, the error names one of them. Which one Plotly reports first is not modelled.
- CollisionDash.GenerateHist: likewise, the error names one missing plotted column, not necessarily the one Plotly reports. The wrapping of a single column name into a list is not modelled, because the only caller passes a list.
- Repeated column names in the collision frame: `read_csv` renames repeats (`name.1`), so the frame the dashboard loads has distinct names. Frames.ColumnIndex resolves a repeated name to its first column, whereas pandas' `df[name]` would return all of them, and the filter, the grouping and the Sankey builder inherit that reading.
- The histogram's percentage normalisation: floating point inside a library call.
- Float-valued cells: `astype(str)` of a float (`"1.0"`) is not modelled. Cells are missing, text or integer.
- Sankey.Stage: its contract states only the number of edges. What each edge holds is stated by Sankey.StageAt, a separate lemma, so that proofs which unfold a stage stay small.
- Strings.ParseInt: Python's `int()` also accepts surrounding whitespace, underscores between digits and non-ASCII digits; only an optional sign followed by ASCII digits is modelled.
- A `None` borough selection, which the code wraps into `[None]`: selections are names or lists of names.
- The order of groups with equal counts: pandas' default sort is not stable, so it is left unspecified.
- `main()`'s own preparation of the frame (lines 26-30 of `main.py`): it only chains the modelled helpers with I/O.
- CollisionDash.GenerateSankey: when a column name repeats or equals `count`, the `reset_index` error is modelled as one `ColumnClash` value. Which name pandas reports is not modelled.

=== FILE: collision_dash.dfy ===
/** The dashboard's data steps: grouping filtered collisions by the selected columns, ranking the
    groups by size and keeping the largest, feeding them to the Sankey builder, and the crash
    tallies shown on the map. */
module CollisionDash {
  import opened Results
  import opened Seqs
  import opened Frames
  import opened OpenDataApi
  import opened Strings
  import opened Sankey

  /** The number of groups `generate_sankey` keeps (`head(10)`; the comment beside it says 20). */
  const TopGroups: nat := 10

  /** One row of `groupby(cols).size().reset_index(name='count')`. */
  datatype GroupCount = GroupCount(key: seq<Cell>, count: nat)

  /** A key every grouped column has a value for; `groupby` drops all other rows. */
  predicate Complete(key: seq<Cell>) {
    forall j :: 0 <= j < |key| ==> !key[j].Missing?
  }

  predicate ValidIndices(header: seq<string>, idx: seq<nat>) {
    forall j :: 0 <= j < |idx| ==> idx[j] < |header|
  }

  /** A row's values in the grouped columns, in column order. */
  function KeyOf(row: Row, idx: seq<nat>): (k: seq<Cell>)
    requires forall j :: 0 <= j < |idx| ==> idx[j] < |row.cells|
    ensures |k| == |idx| && forall j :: 0 <= j < |idx| ==> k[j] == row.cells[idx[j]]
  {
    seq(|idx|, j requires 0 <= j < |idx| => row.cells[idx[j]])
  }

  /** The key of every row, in row order. */
  function KeysOf(rows: seq<Row>, header: seq<string>, idx: seq<nat>): (ks: seq<seq<Cell>>)
    requires forall i :: 0 <= i < |rows| ==> |rows[i].cells| == |header|
    requires ValidIndices(header, idx)
    ensures |ks| == |rows|
    ensures forall i :: 0 <= i < |rows| ==> ks[i] == KeyOf(rows[i], idx)
    decreases |rows|
  {
    if |rows| == 0 then [] else [KeyOf(rows[0], idx)] + KeysOf(rows[1..], header, idx)
  }

  /** Independently of how keys are computed: `row` holds `key` in the named columns. */
  predicate RowHasKey(header: seq<string>, cols: seq<string>, row: Row, key: seq<Cell>) {
    && |key| == |cols|
    && forall j :: 0 <= j < |cols| ==>
         cols[j] in header && FirstIndex(header, cols[j]) < |row.cells| && row.cells[FirstIndex(header, cols[j])] == key[j]
  }

  /** How many records hold `key` in the columns `cols`. */
  function RowsWithKey(f: Frame, cols: seq<string>, key: seq<Cell>): nat {
    |Filter(f.rows, row => RowHasKey(f.header, cols, row, key))|
  }

  lemma {:induction false} KeyCountIsRowCount(rows: seq<Row>, header: seq<string>, cols: seq<string>, key: seq<Cell>)
    requires forall i :: 0 <= i < |rows| ==> |rows[i].cells| == |header|
    requires forall j :: 0 <= j < |cols| ==> cols[j] in header
    requires |key| == |cols|
    ensures var idx := ColumnIndices(header, cols).value;
      multiset(KeysOf(rows, header, idx))[key] == |Filter(rows, row => RowHasKey(header, cols, row, key))|
    decreases |rows|
  {
    var idx := ColumnIndices(header, cols).value;
    if |rows| > 0 {
      KeyCountIsRowCount(rows[1..], header, cols, key);
      var ks := KeysOf(rows, header, idx);
      assert ks == [KeyOf(rows[0], idx)] + KeysOf(rows[1..], header, idx);
      RowHasKeyIsKeyOf(header, cols, rows[0], key);
      assert Filter(rows, row => RowHasKey(header, cols, row, key))
          == (if RowHasKey(header, cols, rows[0], key) then [rows[0]] else [])
             + Filter(rows[1..], row => RowHasKey(header, cols, row, key));
    }
  }

  /** A row holds `key` exactly when its computed key is `key`. */
  lemma RowHasKeyIsKeyOf(header: seq<string>, cols: seq<string>, row: Row, key: seq<Cell>)
    requires |row.cells| == |header|
    requires forall j :: 0 <= j < |cols| ==> cols[j] in header
    requires |key| == |cols|
    ensures RowHasKey(header, cols, row, key) <==> KeyOf(row, ColumnIndices(header, cols).value) == key
  {
    var k := KeyOf(row, ColumnIndices(header, cols).value);
    if RowHasKey(header, cols, row, key) {
      assert forall j :: 0 <= j < |k| ==> k[j] == key[j];
    }
  }

  function GroupKeys(gs: seq<GroupCount>): (ks: seq<seq<Cell>>)
    ensures |ks| == |gs| && forall i :: 0 <= i < |gs| ==> ks[i] == gs[i].key
  {
    seq(|gs|, i requires 0 <= i < |gs| => gs[i].key)
  }

  /** The groups of a list of row keys: every complete key once, with how many rows hold it. */
  predicate GroupsOf(keys: seq<seq<Cell>>, gs: seq<GroupCount>) {
    forall i :: 0 <= i < |gs| ==>
      Complete(gs[i].key) && gs[i].count == multiset(keys)[gs[i].key] && gs[i].count >= 1
  }

  /** `groupby(cols).size()`: each distinct complete key once, with the number of rows holding it. */
  function GroupSizes(keys: seq<seq<Cell>>): (gs: seq<GroupCount>)
    ensures GroupsOf(keys, gs)
    ensures NoDup(GroupKeys(gs))
    ensures forall i :: 0 <= i < |keys| && Complete(keys[i]) ==> keys[i] in GroupKeys(gs)
  {
    var distinct := Dedup(Filter(keys, Complete));
    var gs := seq(|distinct|, i requires 0 <= i < |distinct| => GroupCount(distinct[i], multiset(keys)[distinct[i]]));
    CountedGroups(keys, distinct, gs);
    CompleteKeysKept(keys);
    gs
  }

  /** Counting each distinct complete key gives groups of that key. */
  lemma CountedGroups(keys: seq<seq<Cell>>, distinct: seq<seq<Cell>>, gs: seq<GroupCount>)
    requires distinct == Dedup(Filter(keys, Complete))
    requires |gs| == |distinct| && forall i :: 0 <= i < |gs| ==> gs[i] == GroupCount(distinct[i], multiset(keys)[distinct[i]])
    ensures GroupKeys(gs) == distinct
    ensures GroupsOf(keys, gs)
  {
    assert GroupKeys(gs) == distinct;
    forall i | 0 <= i < |gs|
      ensures Complete(gs[i].key) && gs[i].count >= 1
    {
      FilterMultiplicity(keys, Complete, distinct[i]);
    }
  }

  /** Every complete key among the rows is one of the distinct complete keys. */
  lemma CompleteKeysKept(keys: seq<seq<Cell>>)
    ensures forall i :: 0 <= i < |keys| && Complete(keys[i]) ==> keys[i] in Dedup(Filter(keys, Complete))
  {
    forall i | 0 <= i < |keys| && Complete(keys[i])
      ensures keys[i] in Dedup(Filter(keys, Complete))
    {
      FilterMultiplicity(keys, Complete, keys[i]);
      assert keys[i] in multiset(Filter(keys, Complete));
    }
  }

  /** Counts never increase along the sequence. */
  predicate NonIncreasing(gs: seq<GroupCount>) {
    forall i, j :: 0 <= i < j < |gs| ==> gs[i].count >= gs[j].count
  }

  lemma HeadAtLeastRest(s: seq<GroupCount>, g: GroupCount, rest: seq<GroupCount>)
    requires NonIncreasing(s) && |s| > 0 && g.count < s[0].count
    requires multiset(rest) == multiset(s[1..]) + multiset{g}
    ensures forall j :: 0 <= j < |rest| ==> s[0].count >= rest[j].count
  {
    forall j | 0 <= j < |rest|
      ensures s[0].count >= rest[j].count
    {
      assert rest[j] in multiset(rest);
      if rest[j] != g {
        assert rest[j] in multiset(s[1..]);
        var k :| 0 <= k < |s[1..]| && s[1..][k] == rest[j];
        assert s[k + 1] == rest[j];
      }
    }
  }

  /** Places a group among groups ranked by descending count. */
  function InsertByCount(g: GroupCount, s: seq<GroupCount>): (r: seq<GroupCount>)
    requires NonIncreasing(s)
    ensures NonIncreasing(r)
    ensures multiset(r) == multiset(s) + multiset{g}
    ensures |r| == |s| + 1
    decreases |s|
  {
    if |s| == 0 then [g]
    else if g.count >= s[0].count then [g] + s
    else
      assert s == [s[0]] + s[1..];
      var rest := InsertByCount(g, s[1..]);
      HeadAtLeastRest(s, g, rest);
      [s[0]] + rest
  }

  /** `sort_values(by='count', ascending=False)`: a rearrangement with non-increasing counts.
      pandas' default sort is not stable, so nothing is claimed about the order of equal counts. */
  function SortByCount(gs: seq<GroupCount>): (r: seq<GroupCount>)
    ensures NonIncreasing(r)
    ensures multiset(r) == multiset(gs)
    ensures |r| == |gs|
    decreases |gs|
  {
    if |gs| == 0 then []
    else
      assert gs == [gs[0]] + gs[1..];
      InsertByCount(gs[0], SortByCount(gs[1..]))
  }

  function Min(a: nat, b: nat): nat {
    if a <= b then a else b
  }

  /** What the ranking keeps of the groups of `keys`. */
  function TopGroupsOf(keys: seq<seq<Cell>>): (r: seq<GroupCount>)
    ensures |r| == Min(TopGroups, |GroupSizes(keys)|)
    ensures NonIncreasing(r)
  {
    var sorted := SortByCount(GroupSizes(keys));
    sorted[..Min(TopGroups, |sorted|)]
  }

  lemma DistinctKeysDistinctGroups(gs: seq<GroupCount>)
    requires NoDup(GroupKeys(gs))
    ensures NoDup(gs)
  {
    forall i, j | 0 <= i < j < |gs|
      ensures gs[i] != gs[j]
    {
      assert GroupKeys(gs)[i] != GroupKeys(gs)[j];
    }
  }

  lemma RearrangedGroups(keys: seq<seq<Cell>>, gs: seq<GroupCount>, sorted: seq<GroupCount>)
    requires GroupsOf(keys, gs)
    requires multiset(sorted) == multiset(gs)
    ensures GroupsOf(keys, sorted)
  {
    forall i | 0 <= i < |sorted|
      ensures sorted[i] in gs
    {
      assert sorted[i] in multiset(sorted);
    }
  }

  lemma SameCountsSameGroups(keys: seq<seq<Cell>>, sorted: seq<GroupCount>)
    requires GroupsOf(keys, sorted) && NoDup(sorted)
    ensures NoDup(GroupKeys(sorted))
  {
    forall i, j | 0 <= i < j < |sorted|
      ensures GroupKeys(sorted)[i] != GroupKeys(sorted)[j]
    {
      assert sorted[i] != sorted[j];
    }
  }

  /** Every ranked group is a group of `keys`, and no key is ranked twice. */
  lemma SortedGroupsFacts(keys: seq<seq<Cell>>)
    ensures var sorted := SortByCount(GroupSizes(keys));
      GroupsOf(keys, sorted) && NoDup(GroupKeys(sorted))
  {
    var gs := GroupSizes(keys);
    var sorted := SortByCount(gs);
    RearrangedGroups(keys, gs, sorted);
    DistinctKeysDistinctGroups(gs);
    PermutationNoDup(gs, sorted);
    SameCountsSameGroups(keys, sorted);
  }

  /** Cutting ranked groups to a prefix keeps them ranked, counted and distinct. */
  lemma PrefixOfGroups(keys: seq<seq<Cell>>, sorted: seq<GroupCount>, n: nat)
    requires n <= |sorted|
    requires NonIncreasing(sorted) && GroupsOf(keys, sorted) && NoDup(GroupKeys(sorted))
    ensures NonIncreasing(sorted[..n]) && GroupsOf(keys, sorted[..n]) && NoDup(GroupKeys(sorted[..n]))
  {
    assert GroupKeys(sorted[..n]) == GroupKeys(sorted)[..n];
  }

  /** Groups are ranked and cut to the top: at most `TopGroups` of them, counts non-increasing,
      each a distinct complete key with its row count. */
  lemma TopGroupsRanked(keys: seq<seq<Cell>>)
    ensures var top := TopGroupsOf(keys);
      && |top| <= TopGroups
      && NonIncreasing(top)
      && GroupsOf(keys, top)
      && NoDup(GroupKeys(top))
  {
    var sorted := SortByCount(GroupSizes(keys));
    SortedGroupsFacts(keys);
    PrefixOfGroups(keys, sorted, Min(TopGroups, |sorted|));
  }

  /** The ranking leaves a key with rows out only when all `TopGroups` places are taken by keys
      held by at least as many rows. */
  lemma TopGroupsOmitOnlySmaller(keys: seq<seq<Cell>>, key: seq<Cell>)
    requires Complete(key) && key in keys
    requires key !in GroupKeys(TopGroupsOf(keys))
    ensures var top := TopGroupsOf(keys);
      |top| == TopGroups && multiset(keys)[key] <= top[|top| - 1].count
  {
    var gs := GroupSizes(keys);
    var i :| 0 <= i < |keys| && keys[i] == key;
    assert key in GroupKeys(gs);
    OmittedGroupRanksLower(keys, gs, SortByCount(gs), key);
  }

  lemma OmittedGroupRanksLower(keys: seq<seq<Cell>>, gs: seq<GroupCount>, sorted: seq<GroupCount>, key: seq<Cell>)
    requires GroupsOf(keys, gs) && key in GroupKeys(gs)
    requires multiset(sorted) == multiset(gs) && NonIncreasing(sorted)
    requires key !in GroupKeys(sorted[..Min(TopGroups, |sorted|)])
    ensures var n := Min(TopGroups, |sorted|);
      n == TopGroups && multiset(keys)[key] <= sorted[n - 1].count
  {
    var k :| 0 <= k < |gs| && gs[k].key == key;
    assert gs[k] in multiset(sorted);
    var p :| 0 <= p < |sorted| && sorted[p] == gs[k];
    OmittedRanksLower(sorted, Min(TopGroups, |sorted|), p);
  }

  lemma OmittedRanksLower(sorted: seq<GroupCount>, n: nat, p: nat)
    requires NonIncreasing(sorted) && n == Min(TopGroups, |sorted|) && p < |sorted|
    requires sorted[p].key !in GroupKeys(sorted[..n])
    ensures n == TopGroups && sorted[p].count <= sorted[n - 1].count
  {
    if p < n {
      assert false;
    }
  }

  function SumCounts(gs: seq<GroupCount>): nat
    decreases |gs|
  {
    if |gs| == 0 then 0 else gs[0].count + SumCounts(gs[1..])
  }

  lemma {:induction false} SumCountsIsOccurrences(keys: seq<seq<Cell>>, gs: seq<GroupCount>)
    requires GroupsOf(keys, gs)
    ensures SumCounts(gs) == Occurrences(keys, GroupKeys(gs))
    decreases |gs|
  {
    if |gs| > 0 {
      SumCountsIsOccurrences(keys, gs[1..]);
      assert GroupKeys(gs)[1..] == GroupKeys(gs[1..]);
    }
  }

  /** The kept groups never account for more rows than there are. */
  lemma TopGroupsCountsBounded(keys: seq<seq<Cell>>)
    ensures SumCounts(TopGroupsOf(keys)) <= |keys|
  {
    var top := TopGroupsOf(keys);
    TopGroupsRanked(keys);
    SumCountsIsOccurrences(keys, top);
    OccurrencesOfDistinct(keys, GroupKeys(top));
  }

  /** The group/count/sort/head(10) step of `generate_sankey`. */
  function Aggregate(f: Frame, cols: seq<string>): (r: Result<seq<GroupCount>>)
    requires f.WellFormed()
    ensures r.Ok? <==> |cols| > 0 && forall j :: 0 <= j < |cols| ==> cols[j] in f.header
    ensures |cols| == 0 ==> r == Err(NoGroupKeys)
    ensures r.Ok? ==> |r.value| <= TopGroups && NonIncreasing(r.value) && NoDup(GroupKeys(r.value))
    ensures r.Ok? ==> forall i :: 0 <= i < |r.value| ==>
      && |r.value[i].key| == |cols|
      && Complete(r.value[i].key)
      && r.value[i].count >= 1
      && r.value[i].count == RowsWithKey(f, cols, r.value[i].key)
  {
    if |cols| == 0 then Err(NoGroupKeys)
    else
      match ColumnIndices(f.header, cols)
      case Err(e) => Err(e)
      case Ok(idx) =>
        var keys := KeysOf(f.rows, f.header, idx);
        var top := TopGroupsOf(keys);
        TopGroupsRanked(keys);
        AggregateCounts(f, cols, keys, top);
        Ok(top)
  }

  lemma AggregateCounts(f: Frame, cols: seq<string>, keys: seq<seq<Cell>>, top: seq<GroupCount>)
    requires f.WellFormed() && forall j :: 0 <= j < |cols| ==> cols[j] in f.header
    requires keys == KeysOf(f.rows, f.header, ColumnIndices(f.header, cols).value)
    requires GroupsOf(keys, top)
    ensures forall i :: 0 <= i < |top| ==>
      |top[i].key| == |cols| && top[i].count == RowsWithKey(f, cols, top[i].key)
  {
    forall i | 0 <= i < |top|
      ensures |top[i].key| == |cols| && top[i].count == RowsWithKey(f, cols, top[i].key)
    {
      assert top[i].key in multiset(keys);
      assert top[i].key in keys;
      assert |top[i].key| == |cols|;
      KeyCountIsRowCount(f.rows, f.header, cols, top[i].key);
    }
  }

  /** A complete key that the top groups leave out is held by no more records than the smallest
      group kept, and it can only be left out when all `TopGroups` places are taken. */
  lemma AggregateOmitsOnlySmaller(f: Frame, cols: seq<string>, key: seq<Cell>)
    requires f.WellFormed()
    requires Aggregate(f, cols).Ok?
    requires Complete(key) && RowsWithKey(f, cols, key) >= 1
    requires key !in GroupKeys(Aggregate(f, cols).value)
    ensures var top := Aggregate(f, cols).value;
      |top| == TopGroups && RowsWithKey(f, cols, key) <= top[|top| - 1].count
  {
    var idx := ColumnIndices(f.header, cols).value;
    var keys := KeysOf(f.rows, f.header, idx);
    var holders := Filter(f.rows, row => RowHasKey(f.header, cols, row, key));
    assert holders[0] in f.rows;
    assert |key| == |cols|;
    KeyCountIsRowCount(f.rows, f.header, cols, key);
    assert key in multiset(keys);
    TopGroupsOmitOnlySmaller(keys, key);
  }

  /** The kept groups account for at most every filtered record. */
  lemma AggregateCountsBounded(f: Frame, cols: seq<string>)
    requires f.WellFormed()
    requires Aggregate(f, cols).Ok?
    ensures SumCounts(Aggregate(f, cols).value) <= |f.rows|
  {
    var idx := ColumnIndices(f.header, cols).value;
    TopGroupsCountsBounded(KeysOf(f.rows, f.header, idx));
  }

  /** The header `cols + ['count']` of the grouped frame refuses a repeated name. */
  predicate GroupedHeaderClashes(cols: seq<string>) {
    !NoDup(cols + ["count"])
  }

  /** `reset_index(name='count')` after the ranking: one row per group, its key columns followed by its count. */
  function GroupedTable(cols: seq<string>, gs: seq<GroupCount>): (t: Table)
    requires forall i :: 0 <= i < |gs| ==> |gs[i].key| == |cols|
    ensures t.WellFormed() && t.header == cols + ["count"] && |t.rows| == |gs|
    ensures forall g :: 0 <= g < |gs| ==> t.rows[g] == gs[g].key + [Number(gs[g].count)]
  {
    Table(cols + ["count"], seq(|gs|, g requires 0 <= g < |gs| => gs[g].key + [Number(gs[g].count)]))
  }

  /** `generate_sankey` without the figure: filter, group, rank, then build the Sankey links with
      the group counts as weights. */
  function GenerateSankey(f: Frame, cols: seq<string>, yrStart: int, yrEnd: int, boroughs: seq<string>): (r: Result<SankeyGraph>)
    requires f.WellFormed()
    ensures r.Ok? <==>
      && (|boroughs| == 0 || "borough" in f.header)
      && |cols| >= 2
      && (forall j :: 0 <= j < |cols| ==> cols[j] in f.header)
      && !GroupedHeaderClashes(cols)
    ensures r.Ok? ==> StrictlySorted(r.value.labels)
    ensures r.Ok? ==>
      && |r.value.targets| == |r.value.sources|
      && |r.value.values| == |r.value.sources|
      && forall i :: 0 <= i < |r.value.sources| ==>
           r.value.sources[i] < |r.value.labels| && r.value.targets[i] < |r.value.labels|
  {
    match FilterByYearAndBorough(f, yrStart, yrEnd, boroughs)
    case Err(e) => Err(e)
    case Ok(filtered) =>
      match Aggregate(filtered, cols)
      case Err(e) => Err(e)
      case Ok(groups) =>
        if GroupedHeaderClashes(cols) then Err(ColumnClash)
        else MakeSankey(GroupedTable(cols, groups), cols, Some("count"))
  }

  /** In a grouped header without repeats, key column j is found at position j and `count` after the keys. */
  lemma PositionInGroupedHeader(cols: seq<string>, j: nat)
    requires !GroupedHeaderClashes(cols) && j < |cols|
    ensures FirstIndex(cols + ["count"], cols[j]) == j
    ensures FirstIndex(cols + ["count"], "count") == |cols|
  {
    var h := cols + ["count"];
    assert h[j] == cols[j] && h[|cols|] == "count";
    FirstIndexUnique(h, h[j], j);
    FirstIndexUnique(h, h[|cols|], |cols|);
  }

  /** End to end: the diagram has one link per kept group and adjacent pair of columns. Link
      Offset(i, |groups|) + g runs from group g's value in column i to its value in column i + 1
      and is weighted by the number of records in group g. */
  lemma GenerateSankeyLinkAt(f: Frame, cols: seq<string>, yrStart: int, yrEnd: int, boroughs: seq<string>,
                              filtered: Frame, groups: seq<GroupCount>, d: SankeyGraph, i: nat, g: nat)
    requires f.WellFormed()
    requires FilterByYearAndBorough(f, yrStart, yrEnd, boroughs) == Ok(filtered)
    requires filtered.WellFormed() && Aggregate(filtered, cols) == Ok(groups)
    requires GenerateSankey(f, cols, yrStart, yrEnd, boroughs) == Ok(d)
    requires i < |cols| - 1 && g < |groups|
    ensures |groups[g].key| == |cols|
    ensures var e := Offset(i, |groups|) + g;
      && e < |d.sources|
      && d.labels[d.sources[e]] == Label(groups[g].key[i])
      && d.labels[d.targets[e]] == Label(groups[g].key[i + 1])
      && d.values[e] == Number(RowsWithKey(filtered, cols, groups[g].key))
  {
    assert Ok(d) == MakeSankey(GroupedTable(cols, groups), cols, Some("count"));
    PositionInGroupedHeader(cols, i);
    PositionInGroupedHeader(cols, i + 1);
    GroupedTableLinkAt(cols, groups, d, i, g);
  }

  /** Every node of the collision diagram is the source or the target of some link. */
  lemma GenerateSankeyNodesUsed(f: Frame, cols: seq<string>, yrStart: int, yrEnd: int, boroughs: seq<string>,
                                filtered: Frame, groups: seq<GroupCount>, d: SankeyGraph, c: nat)
    requires f.WellFormed()
    requires FilterByYearAndBorough(f, yrStart, yrEnd, boroughs) == Ok(filtered)
    requires filtered.WellFormed() && Aggregate(filtered, cols) == Ok(groups)
    requires GenerateSankey(f, cols, yrStart, yrEnd, boroughs) == Ok(d)
    requires c < |d.labels|
    ensures exists e :: 0 <= e < |d.sources| && (d.sources[e] == c || d.targets[e] == c)
  {
    assert Ok(d) == MakeSankey(GroupedTable(cols, groups), cols, Some("count"));
    MakeSankeyNodesUsed(GroupedTable(cols, groups), cols, Some("count"), d, c);
  }

  /** In the diagram built from the grouped table, link Offset(i, |groups|) + g joins group g's
      i-th and (i + 1)-th key values and carries the group's count. */
  lemma GroupedTableLinkAt(cols: seq<string>, groups: seq<GroupCount>, d: SankeyGraph, i: nat, g: nat)
    requires forall k :: 0 <= k < |groups| ==> |groups[k].key| == |cols|
    requires i < |cols| - 1 && g < |groups|
    requires FirstIndex(cols + ["count"], cols[i]) == i && FirstIndex(cols + ["count"], cols[i + 1]) == i + 1
    requires FirstIndex(cols + ["count"], "count") == |cols|
    requires MakeSankey(GroupedTable(cols, groups), cols, Some("count")) == Ok(d)
    ensures var e := Offset(i, |groups|) + g;
      && e < |d.sources|
      && d.labels[d.sources[e]] == Label(groups[g].key[i])
      && d.labels[d.targets[e]] == Label(groups[g].key[i + 1])
      && d.values[e] == Number(groups[g].count)
  {
    GroupedLinkAt(cols, groups[g].key, groups[g].count, GroupedTable(cols, groups), d, i, g);
  }

  /** The link of grouped row g: from its key's i-th value to its (i + 1)-th, weighted by its count. */
  lemma GroupedLinkAt(cols: seq<string>, key: seq<Cell>, count: nat, t: Table, d: SankeyGraph, i: nat, g: nat)
    requires |key| == |cols| && i < |cols| - 1
    requires t.WellFormed() && t.header == cols + ["count"]
    requires FirstIndex(t.header, cols[i]) == i && FirstIndex(t.header, cols[i + 1]) == i + 1
    requires FirstIndex(t.header, "count") == |cols|
    requires g < |t.rows| && t.rows[g] == key + [Number(count)]
    requires MakeSankey(t, cols, Some("count")) == Ok(d)
    ensures var e := Offset(i, |t.rows|) + g;
      && e < |d.sources|
      && d.labels[d.sources[e]] == Label(key[i])
      && d.labels[d.targets[e]] == Label(key[i + 1])
      && d.values[e] == Number(count)
  {
    var row := key + [Number(count)];
    assert row[i] == key[i] && row[i + 1] == key[i + 1] && row[|cols|] == Number(count);
    assert !Unweighted(Some("count")) by {
      assert |"count"| == 5;
    }
    MakeSankeyLinkAt(t, cols, Some("count"), d, i, g);
  }

  /** The diagram's size: one link per kept group for each adjacent pair of columns, and at most
      `TopGroups` groups are kept. */
  lemma GenerateSankeySize(f: Frame, cols: seq<string>, yrStart: int, yrEnd: int, boroughs: seq<string>,
                            filtered: Frame, groups: seq<GroupCount>, d: SankeyGraph)
    requires f.WellFormed()
    requires FilterByYearAndBorough(f, yrStart, yrEnd, boroughs) == Ok(filtered)
    requires filtered.WellFormed() && Aggregate(filtered, cols) == Ok(groups)
    requires GenerateSankey(f, cols, yrStart, yrEnd, boroughs) == Ok(d)
    ensures |groups| <= TopGroups
    ensures |d.sources| == (|cols| - 1) * |groups|
  {
    assert Ok(d) == MakeSankey(GroupedTable(cols, groups), cols, Some("count"));
  }

  /** A text annotation of a figure: its text, whether it has an arrow, and its font size. */
  datatype Annotation = Annotation(text: string, showArrow: bool, fontSize: nat)

  /** What `generate_nyc_map` computes besides the scatter plot itself: the number of selected
      collisions, the number per selected borough, and the annotations that show them. */
  datatype MapSummary = MapSummary(total: nat, byBorough: map<string, nat>, annotations: seq<Annotation>)

  /** `len(filtered_df[filtered_df['borough'] == borough])`: the records whose borough is `b`. */
  function CrashesIn(f: Frame, bi: nat, b: string): (n: nat)
    ensures n <= |f.rows|
  {
    |Filter(f.rows, (row: Row) => bi < |row.cells| && row.cells[bi] == Text(b))|
  }

  /** The dictionary `total_crashes_by_borough`, one entry per named borough. */
  function BoroughCounts(f: Frame, boroughs: seq<string>): (m: map<string, nat>)
    requires f.WellFormed() && (|boroughs| == 0 || "borough" in f.header)
    ensures m.Keys == set b | b in boroughs
    ensures forall b :: b in m ==> m[b] == CrashesIn(f, FirstIndex(f.header, "borough"), b)
  {
    if |boroughs| == 0 then map[]
    else
      var bi := FirstIndex(f.header, "borough");
      map b | b in boroughs :: CrashesIn(f, bi, b)
  }

  /** `.get(borough, 0)` on the dictionary. */
  function CountOf(counts: map<string, nat>, b: string): (n: nat)
    ensures b in counts ==> n == counts[b]
    ensures b !in counts ==> n == 0
  {
    if b in counts then counts[b] else 0
  }

  /** One annotation per named borough, in the order named, reading "<borough>: <collisions>". */
  function BoroughAnnotations(boroughs: seq<string>, counts: map<string, nat>): (r: seq<Annotation>)
    ensures |r| == |boroughs|
    ensures forall i :: 0 <= i < |boroughs| ==>
      r[i] == Annotation(boroughs[i] + ": " + NatToString(CountOf(counts, boroughs[i])), false, 14)
  {
    seq(|boroughs|, i requires 0 <= i < |boroughs| =>
      Annotation(boroughs[i] + ": " + NatToString(CountOf(counts, boroughs[i])), false, 14))
  }

  /** The columns `px.scatter_mapbox` reads: latitude and longitude, the `hover_data` keys, the
      `color` column and the `hover_name` column. */
  function MapColumns(lat: string, long: string): seq<string> {
    [lat, long, "latitude", "longitude", "borough", "on_street_name"]
  }

  /** `generate_nyc_map` without drawing: filter, count, annotate. Plotly refuses a frame that
      lacks one of the columns the scatter plot reads. */
  function GenerateNycMap(f: Frame, lat: string, long: string, yrStart: int, yrEnd: int, boroughs: seq<string>): (r: Result<MapSummary>)
    requires f.WellFormed()
    ensures r.Ok? <==>
      && (|boroughs| == 0 || "borough" in f.header)
      && forall j :: 0 <= j < |MapColumns(lat, long)| ==> MapColumns(lat, long)[j] in f.header
    ensures r.Err? ==>
      || (r.error == MissingColumn("borough") && |boroughs| > 0 && "borough" !in f.header)
      || (r.error.PlotColumn? && r.error.name in MapColumns(lat, long) && r.error.name !in f.header)
    ensures r.Ok? ==> r.value.total == |FilterByYearAndBorough(f, yrStart, yrEnd, boroughs).value.rows|
    ensures r.Ok? ==> r.value.byBorough.Keys == set b | b in boroughs
    ensures r.Ok? ==> forall b :: b in r.value.byBorough ==>
      r.value.byBorough[b] ==
        multiset(Column(FilterByYearAndBorough(f, yrStart, yrEnd, boroughs).value, FirstIndex(f.header, "borough")))[Text(b)]
    ensures r.Ok? ==> |r.value.annotations| == |boroughs| + 1
    ensures r.Ok? ==> forall i :: 0 <= i < |boroughs| ==>
      r.value.annotations[i].text == boroughs[i] + ": " + NatToString(r.value.byBorough[boroughs[i]])
    ensures r.Ok? ==>
      r.value.annotations[|boroughs|] == Annotation("Total Collisions: " + NatToString(r.value.total), false, 24)
  {
    match FilterByYearAndBorough(f, yrStart, yrEnd, boroughs)
    case Err(e) => Err(e)
    case Ok(filtered) =>
      match ColumnIndices(f.header, MapColumns(lat, long))
      case Err(e) => Err(PlotColumn(e.name))
      case Ok(_) =>
        var total := |filtered.rows|;
        var counts := BoroughCounts(filtered, boroughs);
        assert MapColumns(lat, long)[4] == "borough";
        var bi := FirstIndex(f.header, "borough");
        BoroughCountsAreMultiplicities(filtered, boroughs);
        var notes := BoroughAnnotations(boroughs, counts) + [Annotation("Total Collisions: " + NatToString(total), false, 24)];
        Ok(MapSummary(total, counts, notes))
  }

  /** The plot input of `generate_hist`: the selected records and the columns plotted. */
  datatype HistogramInput = HistogramInput(records: Frame, columns: seq<string>)

  /** `generate_hist` without drawing: filter, then plot the given columns. Plotly refuses a frame
      that lacks one of them. */
  function GenerateHist(f: Frame, cols: seq<string>, yrStart: int, yrEnd: int, boroughs: seq<string>): (r: Result<HistogramInput>)
    requires f.WellFormed()
    ensures r.Ok? <==>
      && (|boroughs| == 0 || "borough" in f.header)
      && forall j :: 0 <= j < |cols| ==> cols[j] in f.header
    ensures r.Err? ==>
      || (r.error == MissingColumn("borough") && |boroughs| > 0 && "borough" !in f.header)
      || (r.error.PlotColumn? && r.error.name in cols && r.error.name !in f.header)
    ensures r.Ok? ==> r.value == HistogramInput(FilterByYearAndBorough(f, yrStart, yrEnd, boroughs).value, cols)
  {
    match FilterByYearAndBorough(f, yrStart, yrEnd, boroughs)
    case Err(e) => Err(e)
    case Ok(filtered) =>
      match ColumnIndices(filtered.header, cols)
      case Err(e) => Err(PlotColumn(e.name))
      case Ok(_) => Ok(HistogramInput(filtered, cols))
  }

  /** Each borough's entry is how often the borough's name fills the borough column. */
  lemma BoroughCountsAreMultiplicities(f: Frame, boroughs: seq<string>)
    requires f.WellFormed() && "borough" in f.header
    ensures var counts := BoroughCounts(f, boroughs);
      forall b :: b in counts ==> counts[b] == multiset(Column(f, FirstIndex(f.header, "borough")))[Text(b)]
  {
    var counts := BoroughCounts(f, boroughs);
    var bi := FirstIndex(f.header, "borough");
    forall b | b in counts
      ensures counts[b] == multiset(Column(f, bi))[Text(b)]
    {
      CrashesInIsCount(f, bi, b);
    }
  }

  /** Counting by filter agrees with the multiplicity of the borough in the borough column. */
  lemma {:induction false} CrashesInIsCount(f: Frame, bi: nat, b: string)
    requires f.WellFormed() && bi < |f.header|
    ensures CrashesIn(f, bi, b) == multiset(Column(f, bi))[Text(b)]
    decreases |f.rows|
  {
    if |f.rows| > 0 {
      var rest := Frame(f.header, f.rows[1..]);
      CrashesInIsCount(rest, bi, b);
      CountStep(f, bi, b);
    }
  }

  /** Peeling off the first record: it adds one to the count and its cell to the column. */
  lemma CountStep(f: Frame, bi: nat, b: string)
    requires f.WellFormed() && bi < |f.header| && |f.rows| > 0
    ensures var rest := Frame(f.header, f.rows[1..]);
      var c := f.rows[0].cells[bi];
      && CrashesIn(f, bi, b) == (if c == Text(b) then 1 else 0) + CrashesIn(rest, bi, b)
      && multiset(Column(f, bi)) == multiset([c]) + multiset(Column(rest, bi))
  {
    var rest := Frame(f.header, f.rows[1..]);
    assert Column(f, bi) == [f.rows[0].cells[bi]] + Column(rest, bi);
  }

  /** The cells naming each borough. */
  function TextCells(names: seq<string>): (cs: seq<Cell>)
    ensures |cs| == |names| && forall i :: 0 <= i < |names| ==> cs[i] == Text(names[i])
  {
    seq(|names|, i requires 0 <= i < |names| => Text(names[i]))
  }

  /** The per-borough counts shown, added up. */
  function SumShown(boroughs: seq<string>, counts: map<string, nat>): nat
    decreases |boroughs|
  {
    if |boroughs| == 0 then 0 else CountOf(counts, boroughs[0]) + SumShown(boroughs[1..], counts)
  }

  lemma {:induction false} SumShownIsOccurrences(boroughs: seq<string>, counts: map<string, nat>, col: seq<Cell>)
    requires forall i :: 0 <= i < |boroughs| ==> CountOf(counts, boroughs[i]) == multiset(col)[Text(boroughs[i])]
    ensures SumShown(boroughs, counts) == Occurrences(col, TextCells(boroughs))
    decreases |boroughs|
  {
    if |boroughs| > 0 {
      SumShownIsOccurrences(boroughs[1..], counts, col);
      assert TextCells(boroughs)[1..] == TextCells(boroughs[1..]);
    }
  }

  /** With distinct boroughs named, every selected collision is counted under exactly one of them:
      the per-borough annotations add up to the total. */
  lemma BoroughCountsPartitionTotal(f: Frame, lat: string, long: string, yrStart: int, yrEnd: int, boroughs: seq<string>)
    requires f.WellFormed()
    requires GenerateNycMap(f, lat, long, yrStart, yrEnd, boroughs).Ok?
    requires |boroughs| > 0 && NoDup(boroughs)
    ensures var m := GenerateNycMap(f, lat, long, yrStart, yrEnd, boroughs).value;
      SumShown(boroughs, m.byBorough) == m.total
  {
    var filtered := FilterByYearAndBorough(f, yrStart, yrEnd, boroughs).value;
    var m := GenerateNycMap(f, lat, long, yrStart, yrEnd, boroughs).value;
    var bi := FirstIndex(f.header, "borough");
    var col := Column(filtered, bi);
    var ks := TextCells(boroughs);
    forall i | 0 <= i < |boroughs|
      ensures CountOf(m.byBorough, boroughs[i]) == multiset(col)[Text(boroughs[i])]
    {
      CrashesInIsCount(filtered, bi, boroughs[i]);
    }
    SumShownIsOccurrences(boroughs, m.byBorough, col);
    OccurrencesOfDistinct(col, ks);
    forall r | 0 <= r < |col|
      ensures col[r] in ks
    {
      assert Selected(f, yrStart, yrEnd, boroughs, filtered.rows[r]);
      var j :| 0 <= j < |boroughs| && boroughs[j] == col[r].text;
      assert ks[j] == col[r];
    }
  }

  /** A named borough with no selected collision is shown with 0. */
  lemma AbsentBoroughCountsZero(f: Frame, lat: string, long: string, yrStart: int, yrEnd: int, boroughs: seq<string>, b: string)
    requires f.WellFormed()
    requires GenerateNycMap(f, lat, long, yrStart, yrEnd, boroughs).Ok?
    requires b in boroughs
    requires var filtered := FilterByYearAndBorough(f, yrStart, yrEnd, boroughs).value;
      forall i :: 0 <= i < |filtered.rows| ==> filtered.rows[i].cells[FirstIndex(f.header, "borough")] != Text(b)
    ensures GenerateNycMap(f, lat, long, yrStart, yrEnd, boroughs).value.byBorough[b] == 0
  {
    var filtered := FilterByYearAndBorough(f, yrStart, yrEnd, boroughs).value;
    var bi := FirstIndex(f.header, "borough");
    var inBorough := (row: Row) => bi < |row.cells| && row.cells[bi] == Text(b);
    assert forall i :: 0 <= i < |filtered.rows| ==> !inBorough(filtered.rows[i]);
    FilterNone(filtered.rows, inBorough);
  }
}

=== FILE: dashboard.dfy ===
/** The parts of the dashboard callbacks that decide what to compute: normalising the borough
    selection, reading the year range, and the guard that shows a prompt instead of a Sankey
    diagram when fewer than two columns are ticked. */
module Dashboard {
  import opened Results
  import opened Frames
  import opened OpenDataApi
  import opened Sankey
  import opened CollisionDash

  /** The borough dropdown's value: a single name, or a list of names. */
  datatype BoroughSelection = One(name: string) | Many(names: seq<string>)

  /** Either the prompt asking for more columns, or a diagram. The prompt has no traces, its
      annotations, and whether each axis is visible. */
  datatype SankeyFigure =
    | Prompt(data: seq<SankeyGraph>, annotations: seq<Annotation>, xaxisVisible: bool, yaxisVisible: bool)
    | Diagram(graph: SankeyGraph)

  const SelectMorePrompt: string := "Sankey: Please select two or more variables"

  /** The columns `update_histogram` plots. */
  const HistogramColumns: seq<string> := ["number_of_persons_injured", "number_of_persons_killed"]

  /** A single name becomes a one-element list; a list passes through. */
  function NormaliseBoroughs(sel: BoroughSelection): (bs: seq<string>)
    ensures sel.One? ==> |bs| == 1 && bs[0] == sel.name
    ensures sel.Many? ==> bs == sel.names
  {
    match sel
    case One(b) => [b]
    case Many(bs) => bs
  }

  /** Normalising an already normalised selection changes nothing. */
  lemma NormaliseIdempotent(sel: BoroughSelection)
    ensures NormaliseBoroughs(Many(NormaliseBoroughs(sel))) == NormaliseBoroughs(sel)
  {
  }

  /** The figure shown when fewer than two columns are selected. */
  function SelectMoreFigure(): (fig: SankeyFigure)
    ensures fig.Prompt? && fig.data == [] && !fig.xaxisVisible && !fig.yaxisVisible
    ensures |fig.annotations| == 1
    ensures fig.annotations[0] == Annotation(SelectMorePrompt, false, 18)
  {
    Prompt([], [Annotation(SelectMorePrompt, false, 18)], false, false)
  }

  /** `update_sankey_diagram`: the prompt for fewer than two columns, else the diagram of the
      selection. The year range is the slider's first and second value. */
  function UpdateSankeyDiagram(f: Frame, sel: BoroughSelection, years: seq<int>, cols: seq<string>): (r: Result<SankeyFigure>)
    requires f.WellFormed()
    ensures |cols| < 2 ==> r == Ok(SelectMoreFigure())
    ensures |cols| >= 2 && |years| < 2 ==> r == Err(MissingYears)
    ensures |cols| >= 2 && r.Ok? ==> r.value.Diagram?
    ensures r.Ok? && r.value.Diagram? ==>
      && |cols| >= 2 && |years| >= 2
      && GenerateSankey(f, cols, years[0], years[1], NormaliseBoroughs(sel)) == Ok(r.value.graph)
    ensures |cols| >= 2 && |years| >= 2 ==>
      (r.Ok? <==> GenerateSankey(f, cols, years[0], years[1], NormaliseBoroughs(sel)).Ok?)
  {
    if |cols| < 2 then Ok(SelectMoreFigure())
    else if |years| < 2 then Err(MissingYears)
    else
      match GenerateSankey(f, cols, years[0], years[1], NormaliseBoroughs(sel))
      case Err(e) => Err(e)
      case Ok(g) => Ok(Diagram(g))
  }

  /** The prompt depends on nothing but the column count: not on the records, the boroughs or
      the years. */
  lemma PromptIgnoresSelection(f1: Frame, sel1: BoroughSelection, years1: seq<int>,
                               f2: Frame, sel2: BoroughSelection, years2: seq<int>, cols: seq<string>)
    requires f1.WellFormed() && f2.WellFormed()
    requires |cols| < 2
    ensures UpdateSankeyDiagram(f1, sel1, years1, cols) == UpdateSankeyDiagram(f2, sel2, years2, cols)
    ensures UpdateSankeyDiagram(f1, sel1, years1, cols).value.Prompt?
  {
  }

  /** `update_nyc_map`: the crash counts of the selection. */
  function UpdateNycMap(f: Frame, sel: BoroughSelection, years: seq<int>): (r: Result<MapSummary>)
    requires f.WellFormed()
    ensures |years| < 2 ==> r == Err(MissingYears)
    ensures |years| >= 2 ==> r == GenerateNycMap(f, "latitude", "longitude", years[0], years[1], NormaliseBoroughs(sel))
  {
    if |years| < 2 then Err(MissingYears)
    else GenerateNycMap(f, "latitude", "longitude", years[0], years[1], NormaliseBoroughs(sel))
  }

  /** A single selected borough is counted on its own, and its count is the total. */
  lemma SingleBoroughCountIsTotal(f: Frame, b: string, years: seq<int>)
    requires f.WellFormed() && |years| >= 2
    requires UpdateNycMap(f, One(b), years).Ok?
    ensures var m := UpdateNycMap(f, One(b), years).value;
      m.byBorough.Keys == {b} && m.byBorough[b] == m.total
  {
    BoroughCountsPartitionTotal(f, "latitude", "longitude", years[0], years[1], [b]);
  }

  /** `update_histogram`: the histogram of the two casualty columns for the selection. */
  function UpdateHistogram(f: Frame, sel: BoroughSelection, years: seq<int>): (r: Result<HistogramInput>)
    requires f.WellFormed()
    ensures |years| < 2 ==> r == Err(MissingYears)
    ensures |years| >= 2 ==> r == GenerateHist(f, HistogramColumns, years[0], years[1], NormaliseBoroughs(sel))
  {
    if |years| < 2 then Err(MissingYears)
    else GenerateHist(f, HistogramColumns, years[0], years[1], NormaliseBoroughs(sel))
  }

  /** The histogram and the map show the same collisions: for one selection the histogram plots
      exactly as many records as the map's total, and each of them meets the selection. */
  lemma HistogramMatchesMap(f: Frame, sel: BoroughSelection, years: seq<int>)
    requires f.WellFormed()
    requires UpdateHistogram(f, sel, years).Ok? && UpdateNycMap(f, sel, years).Ok?
    ensures |UpdateHistogram(f, sel, years).value.records.rows| == UpdateNycMap(f, sel, years).value.total
    ensures var h := UpdateHistogram(f, sel, years).value;
      forall i :: 0 <= i < |h.records.rows| ==> Selected(f, years[0], years[1], NormaliseBoroughs(sel), h.records.rows[i])
  {
  }
}

=== FILE: frames.dfy ===
/** The data frames the pipeline passes around: a header of column names over rows of cells. */
module Frames {
  import opened Results
  import opened Strings
  import opened Seqs

  /** One cell of a frame: empty (NaN), a string, or an integer. */
  datatype Cell = Missing | Text(text: string) | Number(number: int)

  /** `astype(str)`: the text a cell is shown as. */
  function Label(c: Cell): (s: string)
    ensures c.Missing? ==> s == "nan"
    ensures c.Text? ==> s == c.text
    ensures c.Number? ==> |s| > 0 && s != "nan"
  {
    match c
    case Missing => "nan"
    case Text(s) => s
    case Number(n) => IntToString(n)
  }

  /** Under `astype(str)` an integer becomes decimal text that reads back as the same integer. */
  lemma LabelFaithful(c: Cell)
    ensures c.Number? ==> ParseInt(Label(c)) == Some(c.number)
  {
    if c.Number? {
      IntRoundTrip(c.number);
    }
  }

  /** One collision record: its crash year, already extracted from the crash date, and its cells. */
  datatype Row = Row(year: int, cells: seq<Cell>)

  /** The collision data frame. */
  datatype Frame = Frame(header: seq<string>, rows: seq<Row>) {
    predicate WellFormed() {
      forall i :: 0 <= i < |rows| ==> |rows[i].cells| == |header|
    }
  }

  /** A plain frame of cells, such as the grouped counts handed to the Sankey builder. */
  datatype Table = Table(header: seq<string>, rows: seq<seq<Cell>>) {
    predicate WellFormed() {
      forall i :: 0 <= i < |rows| ==> |rows[i]| == |header|
    }
  }

  /** `df[name]`: the column of that name, or `KeyError`. A repeated name resolves to its first column. */
  function ColumnIndex(header: seq<string>, name: string): (r: Option<nat>)
    ensures r.None? <==> name !in header
    ensures r.Some? ==> r.value == FirstIndex(header, name) && r.value < |header| && header[r.value] == name
  {
    if name in header then Some(FirstIndex(header, name)) else None
  }

  /** Resolves a list of column names; the first unknown one is reported. */
  function ColumnIndices(header: seq<string>, names: seq<string>): (r: Result<seq<nat>>)
    ensures r.Ok? <==> forall j :: 0 <= j < |names| ==> names[j] in header
    ensures r.Ok? ==> |r.value| == |names|
    ensures r.Ok? ==> forall j :: 0 <= j < |names| ==>
      names[j] in header && r.value[j] == FirstIndex(header, names[j]) && r.value[j] < |header| && header[r.value[j]] == names[j]
    ensures r.Err? ==> r.error.MissingColumn? && r.error.name in names && r.error.name !in header
    decreases |names|
  {
    if |names| == 0 then Ok([])
    else match ColumnIndex(header, names[0])
      case None => Err(MissingColumn(names[0]))
      case Some(i) =>
        match ColumnIndices(header, names[1..])
        case Err(e) => Err(e)
        case Ok(rest) => Ok([i] + rest)
  }

  /** In a header without repeated names, each name resolves to its own position. */
  lemma ColumnIndexOfDistinct(header: seq<string>, i: nat)
    requires NoDup(header) && i < |header|
    ensures ColumnIndex(header, header[i]) == Some(i)
  {
    FirstIndexUnique(header, header[i], i);
  }

  /** The cells of one column of the collision frame. */
  function Column(f: Frame, i: nat): (c: seq<Cell>)
    requires f.WellFormed() && i < |f.header|
    ensures |c| == |f.rows|
    ensures forall r :: 0 <= r < |c| ==> c[r] == f.rows[r].cells[i]
  {
    seq(|f.rows|, r requires 0 <= r < |f.rows| => f.rows[r].cells[i])
  }
}

=== FILE: open_data_api.dfy ===
/** The data-preparation helpers of the open-data client: hour bucketing of crash times,
    the distinct labels of a column, and filtering by year range and borough. */
module OpenDataApi {
  import opened Results
  import opened Strings
  import opened Seqs
  import opened Frames

  /** `time.split(':')` unpacked into two names: defined only when the text holds exactly one colon. */
  function SplitTime(t: string): (r: Option<(string, string)>)
    ensures r.Some? <==> multiset(t)[':'] == 1
    ensures r.Some? ==> t == r.value.0 + ":" + r.value.1 && ':' !in r.value.0 && ':' !in r.value.1
  {
    if multiset(t)[':'] != 1 then None
    else
      var i := FirstIndex(t, ':');
      assert t == t[..i] + [':'] + t[i + 1..];
      assert multiset(t[..i])[':'] == 0;
      Some((t[..i], t[i + 1..]))
  }

  /** Splitting an hour text and a minute text joined by a colon gives them back. */
  lemma SplitTimeOfParts(hour: string, minute: string)
    requires ':' !in hour && ':' !in minute
    ensures SplitTime(hour + ":" + minute) == Some((hour, minute))
  {
    var t := hour + ":" + minute;
    assert multiset(hour)[':'] == 0 && multiset(minute)[':'] == 0;
    assert multiset(t) == multiset(hour) + multiset{':'} + multiset(minute);
    assert t[..|hour|] == hour && t[|hour| + 1..] == minute;
    FirstIndexUnique(t, ':', |hour|);
  }

  /** `_convert_time_to_range`: the hour text as written, a dash, and the following hour modulo 24. */
  function ConvertTimeToRange(t: string): (r: Result<string>)
    ensures r.Ok? ==> multiset(t)[':'] == 1
    ensures multiset(t)[':'] != 1 ==> r == Err(BadTimeFormat(t))
  {
    match SplitTime(t)
    case None => Err(BadTimeFormat(t))
    case Some((hour, _)) =>
      match ParseInt(hour)
      case None => Err(BadHour(hour))
      case Some(h) => Ok(hour + "-" + NatToString((h + 1) % 24))
  }

  /** For `"<hour>:<minute>"` the bucket is the hour text verbatim, `-`, and the decimal digits of
      `(hour + 1) mod 24`, which read back as an hour in 0..23; a non-numeric hour is an error. */
  lemma {:induction false} TimeRangeOfParts(hour: string, minute: string)
    requires ':' !in hour && ':' !in minute
    ensures ParseInt(hour).None? ==> ConvertTimeToRange(hour + ":" + minute) == Err(BadHour(hour))
    ensures ParseInt(hour).Some? ==>
      var next := (ParseInt(hour).value + 1) % 24;
      && 0 <= next < 24
      && ConvertTimeToRange(hour + ":" + minute) == Ok(hour + "-" + NatToString(next))
      && ParseInt(NatToString(next)) == Some(next)
  {
    SplitTimeOfParts(hour, minute);
    if ParseInt(hour).Some? {
      IntRoundTrip((ParseInt(hour).value + 1) % 24);
    }
  }

  /** The minute never influences the bucket. */
  lemma {:induction false} TimeRangeIgnoresMinute(hour: string, minute1: string, minute2: string)
    requires ':' !in hour && ':' !in minute1 && ':' !in minute2
    ensures ConvertTimeToRange(hour + ":" + minute1) == ConvertTimeToRange(hour + ":" + minute2)
  {
    SplitTimeOfParts(hour, minute1);
    SplitTimeOfParts(hour, minute2);
  }

  lemma TwoDigitHour(a: char, b: char)
    requires IsDigit(a) && IsDigit(b)
    ensures ParseInt([a, b]) == Some(DigitValue(a) * 10 + DigitValue(b))
  {
    assert [a, b][..1] == [a];
    assert DigitsValue([a]) == DigitValue(a) by {
      assert [a][..0] == [];
    }
  }

  /** A concrete two-digit hour text reads as its value. */
  lemma HourTextValue(a: char, b: char, h: int)
    requires IsDigit(a) && IsDigit(b) && h == (a as int - '0' as int) * 10 + (b as int - '0' as int)
    ensures ParseInt([a, b]) == Some(h)
  {
    TwoDigitHour(a, b);
  }

  /** A single digit's decimal text. */
  lemma DigitText(d: nat, c: char)
    requires d < 10 && c as int == d + '0' as int
    ensures NatToString(d) == [c]
  {
  }

  lemma TimeRangeOfHour(hour: string, minute: string, h: int, next: nat)
    requires ':' !in hour && ':' !in minute && ParseInt(hour) == Some(h) && next == (h + 1) % 24
    ensures ConvertTimeToRange(hour + ":" + minute) == Ok(hour + "-" + NatToString(next))
  {
    SplitTimeOfParts(hour, minute);
  }

  lemma TimeRangeOfLastHour(hour: string, minute: string)
    requires ':' !in hour && ':' !in minute && ParseInt(hour) == Some(23)
    ensures ConvertTimeToRange(hour + ":" + minute) == Ok(hour + "-" + "0")
  {
    TimeRangeOfHour(hour, minute, 23, 0);
    DigitText(0, '0');
  }

  /** Hour 23 wraps to 0, whatever the minute. */
  lemma TimeRangeWrapsAtMidnight(minute: string)
    requires ':' !in minute
    ensures ConvertTimeToRange("23" + ":" + minute) == Ok("23-0")
  {
    HourTextValue('2', '3', 23);
    assert ':' !in "23";
    TimeRangeOfLastHour("23", minute);
    BucketText('2', '3', '0');
  }

  /** The bucket text of a two-digit hour and a one-digit successor, spelt out. */
  lemma BucketText(a: char, b: char, c: char)
    ensures [a, b] + "-" + [c] == [a, b, '-', c]
  {
  }

  /** A leading zero in the hour is kept, because the hour text is not re-formatted. */
  lemma TimeRangeKeepsHourText(minute: string)
    requires ':' !in minute
    ensures ConvertTimeToRange("03" + ":" + minute) == Ok("03-4")
  {
    HourTextValue('0', '3', 3);
    TimeRangeOfHour("03", minute, 3, 4);
    DigitText(4, '4');
    BucketText('0', '3', '4');
  }

  /** Applying the bucketing to one cell: only strings can be split. */
  function BucketCell(c: Cell): Result<string> {
    if c.Text? then ConvertTimeToRange(c.text) else Err(NotText)
  }

  /** `Series.apply(_convert_time_to_range)`: element-wise, stopping at the first failure. */
  function BucketCells(cs: seq<Cell>): (r: Result<seq<string>>)
    ensures r.Ok? <==> forall i :: 0 <= i < |cs| ==> BucketCell(cs[i]).Ok?
    ensures r.Ok? ==> |r.value| == |cs|
    ensures r.Ok? ==> forall i :: 0 <= i < |cs| ==> BucketCell(cs[i]) == Ok(r.value[i])
    ensures r.Err? ==> exists i :: 0 <= i < |cs| && BucketCell(cs[i]) == Err(r.error) && forall j :: 0 <= j < i ==> BucketCell(cs[j]).Ok?
  {
    MapResults(cs, BucketCell)
  }

  /** `convert_time_col_to_ranges`: the bucket of every row of the named column, in row order. */
  function ConvertTimeColToRanges(f: Frame, col: string): (r: Result<seq<string>>)
    requires f.WellFormed()
    ensures col !in f.header ==> r == Err(MissingColumn(col))
    ensures r.Ok? ==> col in f.header && |r.value| == |f.rows|
    ensures r.Ok? ==> forall i :: 0 <= i < |f.rows| ==>
      BucketCell(f.rows[i].cells[FirstIndex(f.header, col)]) == Ok(r.value[i])
    ensures col in f.header && (forall i :: 0 <= i < |f.rows| ==> BucketCell(f.rows[i].cells[FirstIndex(f.header, col)]).Ok?)
      ==> r.Ok?
    ensures r.Err? && col in f.header ==>
      exists i :: && 0 <= i < |f.rows|
                  && BucketCell(f.rows[i].cells[FirstIndex(f.header, col)]) == Err(r.error)
                  && forall j :: 0 <= j < i ==> BucketCell(f.rows[j].cells[FirstIndex(f.header, col)]).Ok?
  {
    match ColumnIndex(f.header, col)
    case None => Err(MissingColumn(col))
    case Some(i) => BucketCells(Column(f, i))
  }

  /** How `fetch_unique_labels` shows a value: strings title-cased, anything else as `'None'`. */
  function FormatLabel(c: Cell, title: string -> string): (r: string)
    ensures c.Text? ==> r == title(c.text)
    ensures !c.Text? ==> r == "None"
  {
    if c.Text? then title(c.text) else "None"
  }

  function FormatAll(cs: seq<Cell>, title: string -> string): (r: seq<string>)
    ensures |r| == |cs|
    ensures forall i :: 0 <= i < |cs| ==> r[i] == FormatLabel(cs[i], title)
  {
    seq(|cs|, i requires 0 <= i < |cs| => FormatLabel(cs[i], title))
  }

  lemma FormatAllCovers(values: seq<Cell>, cs: seq<Cell>, title: string -> string)
    requires forall i :: 0 <= i < |values| ==> values[i] in cs
    ensures forall i :: 0 <= i < |values| ==> FormatLabel(values[i], title) in FormatAll(cs, title)
  {
    forall i | 0 <= i < |values|
      ensures FormatLabel(values[i], title) in FormatAll(cs, title)
    {
      var k :| 0 <= k < |cs| && cs[k] == values[i];
      assert FormatAll(cs, title)[k] == FormatLabel(values[i], title);
    }
  }

  /** `unique()` followed by the formatting: entry i is the label of the i-th distinct value, so
      there is one entry per distinct value and every value is represented. */
  function DistinctLabels(values: seq<Cell>, title: string -> string): (r: seq<string>)
    ensures |r| == |Dedup(values)| == |set c | c in values|
    ensures forall i :: 0 <= i < |r| ==> r[i] == FormatLabel(Dedup(values)[i], title)
    ensures forall i :: 0 <= i < |values| ==> FormatLabel(values[i], title) in r
  {
    var distinct := Dedup(values);
    NoDupCardinality(distinct);
    assert (set c | c in distinct) == (set c | c in values);
    FormatAllCovers(values, distinct, title);
    FormatAll(distinct, title)
  }

  /** The labels come in the order in which their values first appear: entry k is the label of the
      value at the k-th position where a value occurs for the first time. */
  lemma DistinctLabelsInAppearanceOrder(values: seq<Cell>, title: string -> string)
    ensures var labels := DistinctLabels(values, title);
      var ps := FirstAppearances(values);
      && |labels| == |ps|
      && forall k :: 0 <= k < |ps| ==> labels[k] == FormatLabel(values[ps[k]], title)
  {
    DedupAtFirstAppearances(values);
  }

  /** `fetch_unique_labels`: the distinct labels of the named column. */
  function FetchUniqueLabels(f: Frame, col: string, title: string -> string): (r: Result<seq<string>>)
    requires f.WellFormed()
    ensures r.Ok? <==> col in f.header
    ensures r.Err? ==> r.error == MissingColumn(col)
    ensures r.Ok? ==> r.value == DistinctLabels(Column(f, FirstIndex(f.header, col)), title)
  {
    match ColumnIndex(f.header, col)
    case None => Err(MissingColumn(col))
    case Some(ci) => Ok(DistinctLabels(Column(f, ci), title))
  }

  predicate InYears(row: Row, yrStart: int, yrEnd: int) {
    yrStart <= row.year <= yrEnd
  }

  /** `borough.isin(boroughs)`: a string cell equal to one of the names. */
  predicate InBoroughs(row: Row, bi: nat, boroughs: seq<string>) {
    bi < |row.cells| && row.cells[bi].Text? && row.cells[bi].text in boroughs
  }

  /** The records `filter_by_year_and_borough` keeps: crash year within the inclusive range and,
      when any borough is named, a borough among the names. */
  ghost predicate Selected(f: Frame, yrStart: int, yrEnd: int, boroughs: seq<string>, row: Row) {
    && yrStart <= row.year <= yrEnd
    && (|boroughs| > 0 ==> "borough" in f.header && InBoroughs(row, FirstIndex(f.header, "borough"), boroughs))
  }

  /** `filter_by_year_and_borough`: the year mask, then the borough mask when the list is non-empty. */
  function FilterByYearAndBorough(f: Frame, yrStart: int, yrEnd: int, boroughs: seq<string>): (r: Result<Frame>)
    requires f.WellFormed()
    ensures r.Ok? <==> |boroughs| == 0 || "borough" in f.header
    ensures r.Err? ==> r.error == MissingColumn("borough")
    ensures r.Ok? ==> r.value.header == f.header && r.value.WellFormed() && |r.value.rows| <= |f.rows|
    ensures r.Ok? ==> forall i :: 0 <= i < |r.value.rows| ==> Selected(f, yrStart, yrEnd, boroughs, r.value.rows[i])
  {
    var byYear := Filter(f.rows, row => InYears(row, yrStart, yrEnd));
    if |boroughs| == 0 then Ok(Frame(f.header, byYear))
    else
      match ColumnIndex(f.header, "borough")
      case None => Err(MissingColumn("borough"))
      case Some(bi) => Ok(Frame(f.header, Filter(byYear, row => InBoroughs(row, bi, boroughs))))
  }

  /** Every record that satisfies the criteria is kept, as often as it occurs; no other record is. */
  lemma FilterKeepsExactlySelected(f: Frame, yrStart: int, yrEnd: int, boroughs: seq<string>, row: Row)
    requires f.WellFormed()
    requires FilterByYearAndBorough(f, yrStart, yrEnd, boroughs).Ok?
    ensures var kept := FilterByYearAndBorough(f, yrStart, yrEnd, boroughs).value.rows;
      multiset(kept)[row] == if Selected(f, yrStart, yrEnd, boroughs, row) then multiset(f.rows)[row] else 0
  {
    var byYear := Filter(f.rows, row => InYears(row, yrStart, yrEnd));
    FilterMultiplicity(f.rows, row => InYears(row, yrStart, yrEnd), row);
    if |boroughs| > 0 {
      var bi := FirstIndex(f.header, "borough");
      FilterMultiplicity(byYear, row => InBoroughs(row, bi, boroughs), row);
    }
  }

  /** The kept records are in their original order. */
  lemma FilterKeepsOrder(f: Frame, yrStart: int, yrEnd: int, boroughs: seq<string>)
    requires f.WellFormed()
    requires FilterByYearAndBorough(f, yrStart, yrEnd, boroughs).Ok?
    ensures IsSubseq(FilterByYearAndBorough(f, yrStart, yrEnd, boroughs).value.rows, f.rows)
  {
    var inYears := row => InYears(row, yrStart, yrEnd);
    if |boroughs| == 0 {
      FilterIsSubseq(f.rows, inYears);
    } else {
      var bi := FirstIndex(f.header, "borough");
      var inBoroughs := row => InBoroughs(row, bi, boroughs);
      var both := row => InYears(row, yrStart, yrEnd) && InBoroughs(row, bi, boroughs);
      FilterThenFilter(f.rows, inYears, inBoroughs, both);
      FilterIsSubseq(f.rows, both);
    }
  }

  /** Filtering the result again with the same arguments changes nothing. */
  lemma FilterByYearAndBoroughIdempotent(f: Frame, yrStart: int, yrEnd: int, boroughs: seq<string>)
    requires f.WellFormed()
    requires FilterByYearAndBorough(f, yrStart, yrEnd, boroughs).Ok?
    ensures var once := FilterByYearAndBorough(f, yrStart, yrEnd, boroughs).value;
      FilterByYearAndBorough(once, yrStart, yrEnd, boroughs) == Ok(once)
  {
    var once := FilterByYearAndBorough(f, yrStart, yrEnd, boroughs).value;
    var inYears := row => InYears(row, yrStart, yrEnd);
    FilterAll(once.rows, inYears);
    if |boroughs| > 0 {
      var bi := FirstIndex(f.header, "borough");
      FilterAll(once.rows, row => InBoroughs(row, bi, boroughs));
    }
  }
}

=== FILE: results.dfy ===
/** Optional values, the pipeline's failures, and a result type.
    Each `Error` stands for the exception the Python code raises at that point. */
module Results {

  datatype Option<+T> = None | Some(value: T)

  datatype Error =
    | MissingColumn(name: string)   // KeyError: a column the frame does not have
    | NoGroupKeys                   // ValueError: `groupby` over an empty column list
    | ColumnClash                   // ValueError: `reset_index` inserting a column name that already exists
    | TooFewStages                  // KeyError: `stacked['vals']` read after a loop that never ran
    | BadTimeFormat(time: string)   // ValueError: `split(':')` did not yield exactly two parts
    | BadHour(hour: string)         // ValueError: `int()` refused the hour text
    | NotText                       // AttributeError: `split` called on a cell that is not a string
    | MissingYears                  // IndexError: the year selection has fewer than two entries
    | PlotColumn(name: string)      // ValueError: a Plotly Express argument names a column the frame does not have

  datatype Result<+T> = Ok(value: T) | Err(error: Error)

  /** Applies `f` to every element in order, stopping at the first failure. */
  function MapResults<T, U>(xs: seq<T>, f: T -> Result<U>): (r: Result<seq<U>>)
    ensures r.Ok? <==> forall i :: 0 <= i < |xs| ==> f(xs[i]).Ok?
    ensures r.Ok? ==> |r.value| == |xs| && forall i :: 0 <= i < |xs| ==> f(xs[i]) == Ok(r.value[i])
    ensures r.Err? ==> exists i :: 0 <= i < |xs| && f(xs[i]) == Err(r.error) && forall j :: 0 <= j < i ==> f(xs[j]).Ok?
    decreases |xs|
  {
    if |xs| == 0 then Ok([])
    else
      match f(xs[0])
      case Err(e) => Err(e)
      case Ok(y) =>
        match MapResults(xs[1..], f)
        case Err(e) =>
          var i :| 0 <= i < |xs[1..]| && f(xs[1..][i]) == Err(e) && forall j :: 0 <= j < i ==> f(xs[1..][j]).Ok?;
          assert f(xs[i + 1]) == Err(e);
          assert forall j :: 0 < j < i + 1 ==> f(xs[j]) == f(xs[1..][j - 1]);
          Err(e)
        case Ok(ys) =>
          assert forall i :: 0 < i < |xs| ==> f(xs[i]) == f(xs[1..][i - 1]);
          Ok([y] + ys)
  }
}

=== FILE: sankey.dfy ===
/** The Sankey builder: stacking adjacent column pairs into weighted edges, coding labels as
    node indices, and assembling the link and node lists. */
module Sankey {
  import opened Results
  import opened Strings
  import opened Seqs
  import opened Frames

  /** One row of the stacked frame: source label, target label and the row's weight. */
  datatype Edge = Edge(src: string, targ: string, val: Cell)

  /** The stacked frame and its weight column as a list. */
  datatype Stacked = Stacked(edges: seq<Edge>, values: seq<Cell>)

  predicate ValidColumns(t: Table, idx: seq<nat>) {
    forall j :: 0 <= j < |idx| ==> idx[j] < |t.header|
  }

  /** One stage: column `a` as source and column `b` as target, one edge per row. */
  function Stage(t: Table, a: nat, b: nat, vals: seq<Cell>): (r: seq<Edge>)
    requires t.WellFormed() && a < |t.header| && b < |t.header| && |vals| == |t.rows|
    ensures |r| == |t.rows|
  {
    seq(|t.rows|, i requires 0 <= i < |t.rows| => Edge(Label(t.rows[i][a]), Label(t.rows[i][b]), vals[i]))
  }

  /** Edge i of a stage joins row i's text in column `a` to its text in column `b`, with row i's weight. */
  lemma StageAt(t: Table, a: nat, b: nat, vals: seq<Cell>, i: nat)
    requires t.WellFormed() && a < |t.header| && b < |t.header| && |vals| == |t.rows| && i < |t.rows|
    ensures Stage(t, a, b, vals)[i] == Edge(Label(t.rows[i][a]), Label(t.rows[i][b]), vals[i])
  {
  }

  /** The stage of each adjacent pair of columns, in column order. */
  function StageBlocks(t: Table, idx: seq<nat>, vals: seq<Cell>): (bs: seq<seq<Edge>>)
    requires t.WellFormed() && ValidColumns(t, idx) && |vals| == |t.rows| && |idx| >= 1
    ensures |bs| == |idx| - 1
    decreases |idx|
  {
    if |idx| == 1 then [] else [Stage(t, idx[0], idx[1], vals)] + StageBlocks(t, idx[1..], vals)
  }

  /** Block k is the stage of columns k and k + 1, one edge per row. */
  lemma {:induction false} StageBlocksAt(t: Table, idx: seq<nat>, vals: seq<Cell>, k: nat)
    requires t.WellFormed() && ValidColumns(t, idx) && |vals| == |t.rows| && k < |idx| - 1
    ensures StageBlocks(t, idx, vals)[k] == Stage(t, idx[k], idx[k + 1], vals)
    ensures |StageBlocks(t, idx, vals)[k]| == |t.rows|
    decreases k
  {
    var first := Stage(t, idx[0], idx[1], vals);
    var rest := StageBlocks(t, idx[1..], vals);
    assert StageBlocks(t, idx, vals) == [first] + rest;
    if k > 0 {
      StageBlocksAt(t, idx[1..], vals, k - 1);
      assert idx[1..][k - 1] == idx[k] && idx[1..][k] == idx[k + 1];
      AppendRight([first], rest, k - 1);
    }
  }

  /** Blocks laid end to end. */
  function Flatten<T>(bs: seq<seq<T>>): seq<T>
    decreases |bs|
  {
    if |bs| == 0 then [] else bs[0] + Flatten(bs[1..])
  }

  /** The stages of every adjacent pair of columns, concatenated in column order. */
  function Stages(t: Table, idx: seq<nat>, vals: seq<Cell>): seq<Edge>
    requires t.WellFormed() && ValidColumns(t, idx) && |vals| == |t.rows| && |idx| >= 1
  {
    Flatten(StageBlocks(t, idx, vals))
  }

  /** Where stage i starts: i blocks of n edges, i.e. i * n (see `OffsetIsProduct`). */
  function Offset(i: nat, n: nat): nat {
    if i == 0 then 0 else Offset(i - 1, n) + n
  }

  lemma {:induction false} OffsetIsProduct(i: nat, n: nat)
    ensures Offset(i, n) == i * n
  {
    if i > 0 {
      OffsetIsProduct(i - 1, n);
      assert i * n == (i - 1) * n + n;
    }
  }

  lemma AppendLeft<T>(a: seq<T>, b: seq<T>, k: nat)
    requires k < |a|
    ensures (a + b)[k] == a[k]
  {
  }

  lemma AppendRight<T>(a: seq<T>, b: seq<T>, k: nat)
    requires k < |b|
    ensures (a + b)[|a| + k] == b[k]
  {
  }

  /** m blocks of n elements flatten to Offset(m, n) elements. */
  lemma {:induction false} FlattenLength<T>(bs: seq<seq<T>>, n: nat)
    requires forall k :: 0 <= k < |bs| ==> |bs[k]| == n
    ensures |Flatten(bs)| == Offset(|bs|, n)
    decreases |bs|
  {
    if |bs| > 0 {
      FlattenLength(bs[1..], n);
    }
  }

  /** In blocks of n elements, position Offset(i, n) + r holds element r of block i. */
  lemma {:induction false} FlattenAt<T>(bs: seq<seq<T>>, n: nat, i: nat, r: nat)
    requires forall k :: 0 <= k < |bs| ==> |bs[k]| == n
    requires i < |bs| && r < n
    ensures Offset(i, n) + r < |Flatten(bs)|
    ensures Flatten(bs)[Offset(i, n) + r] == bs[i][r]
    decreases i
  {
    var rest := Flatten(bs[1..]);
    assert Flatten(bs) == bs[0] + rest;
    if i == 0 {
      AppendLeft(bs[0], rest, r);
    } else {
      FlattenAt(bs[1..], n, i - 1, r);
      AppendRight(bs[0], rest, Offset(i - 1, n) + r);
    }
  }

  /** k columns over n rows give (k - 1) * n edges. */
  lemma StagesLength(t: Table, idx: seq<nat>, vals: seq<Cell>)
    requires t.WellFormed() && ValidColumns(t, idx) && |vals| == |t.rows| && |idx| >= 1
    ensures |Stages(t, idx, vals)| == (|idx| - 1) * |t.rows|
  {
    var bs := StageBlocks(t, idx, vals);
    forall k | 0 <= k < |bs|
      ensures |bs[k]| == |t.rows|
    {
      StageBlocksAt(t, idx, vals, k);
    }
    FlattenLength(bs, |t.rows|);
    OffsetIsProduct(|idx| - 1, |t.rows|);
  }

  /** The edge at position Offset(i, n) + r joins row r's value in column i to its value in column i + 1. */
  lemma StagesAt(t: Table, idx: seq<nat>, vals: seq<Cell>, i: nat, r: nat)
    requires t.WellFormed() && ValidColumns(t, idx) && |vals| == |t.rows|
    requires i < |idx| - 1 && r < |t.rows|
    ensures Offset(i, |t.rows|) + r < |Stages(t, idx, vals)|
    ensures Stages(t, idx, vals)[Offset(i, |t.rows|) + r]
         == Edge(Label(t.rows[r][idx[i]]), Label(t.rows[r][idx[i + 1]]), vals[r])
  {
    var bs := StageBlocks(t, idx, vals);
    assert Stages(t, idx, vals) == Flatten(bs);
    forall k | 0 <= k < |bs|
      ensures |bs[k]| == |t.rows|
    {
      StageBlocksAt(t, idx, vals, k);
    }
    FlattenAt(bs, |t.rows|, i, r);
    var st := Stage(t, idx[i], idx[i + 1], vals);
    StageBlocksAt(t, idx, vals, i);
    StageAt(t, idx[i], idx[i + 1], vals, r);
    assert st[r] == Edge(Label(t.rows[r][idx[i]]), Label(t.rows[r][idx[i + 1]]), vals[r]);
  }

  /** `_stack_cols`: every cell as text, one stage per adjacent column pair. */
  function StackCols(t: Table, cols: seq<string>, vals: seq<Cell>): (r: Result<Stacked>)
    requires t.WellFormed() && |vals| == |t.rows|
    ensures r.Ok? <==> |cols| >= 2 && forall j :: 0 <= j < |cols| ==> cols[j] in t.header
    ensures |cols| < 2 ==> r == Err(TooFewStages)
    ensures r.Err? && |cols| >= 2 ==> r.error.MissingColumn? && r.error.name in cols && r.error.name !in t.header
    ensures r.Ok? ==> |r.value.edges| == (|cols| - 1) * |t.rows| && |r.value.values| == |r.value.edges|
    ensures r.Ok? ==> forall e :: 0 <= e < |r.value.edges| ==> r.value.values[e] == r.value.edges[e].val
  {
    if |cols| < 2 then Err(TooFewStages)
    else
      match ColumnIndices(t.header, cols)
      case Err(e) => Err(e)
      case Ok(idx) =>
        var edges := Stages(t, idx, vals);
        StagesLength(t, idx, vals);
        Ok(Stacked(edges, Weights(edges)))
  }

  /** The edge at position Offset(i, n) + r of the stacked frame: row r's text in column i as source,
      its text in column i + 1 as target, and row r's weight. Rows with equal pairs stay separate edges. */
  lemma StackColsEdgeAt(t: Table, cols: seq<string>, vals: seq<Cell>, i: nat, r: nat)
    requires t.WellFormed() && |vals| == |t.rows|
    requires StackCols(t, cols, vals).Ok?
    requires i < |cols| - 1 && r < |t.rows|
    ensures var s := StackCols(t, cols, vals).value;
      && Offset(i, |t.rows|) + r < |s.edges|
      && s.edges[Offset(i, |t.rows|) + r]
         == Edge(Label(t.rows[r][FirstIndex(t.header, cols[i])]),
                 Label(t.rows[r][FirstIndex(t.header, cols[i + 1])]),
                 vals[r])
  {
    var idx := ColumnIndices(t.header, cols).value;
    var edges := Stages(t, idx, vals);
    assert StackCols(t, cols, vals) == Ok(Stacked(edges, Weights(edges)));
    StagesAt(t, idx, vals, i, r);
  }

  /** `m` copies of `s`, one after another. */
  function Repeat<T>(s: seq<T>, m: nat): (r: seq<T>)
    ensures |r| == Offset(m, |s|)
    ensures forall e :: 0 <= e < |r| ==> r[e] in s
  {
    if m == 0 then [] else s + Repeat(s, m - 1)
  }

  /** The weight column of a list of edges. */
  function Weights(edges: seq<Edge>): (w: seq<Cell>)
    ensures |w| == |edges|
    ensures forall e :: 0 <= e < |edges| ==> w[e] == edges[e].val
  {
    seq(|edges|, e requires 0 <= e < |edges| => edges[e].val)
  }

  lemma WeightsAppend(a: seq<Edge>, b: seq<Edge>)
    ensures Weights(a + b) == Weights(a) + Weights(b)
  {
  }

  lemma StageWeights(t: Table, a: nat, b: nat, vals: seq<Cell>)
    requires t.WellFormed() && a < |t.header| && b < |t.header| && |vals| == |t.rows|
    ensures Weights(Stage(t, a, b, vals)) == vals
  {
  }

  /** Every stage carries the row weights, so the stacked weights are `vals` once per stage. */
  lemma {:induction false} StagesWeights(t: Table, idx: seq<nat>, vals: seq<Cell>)
    requires t.WellFormed() && ValidColumns(t, idx) && |vals| == |t.rows| && |idx| >= 1
    ensures Weights(Stages(t, idx, vals)) == Repeat(vals, |idx| - 1)
    decreases |idx|
  {
    if |idx| >= 2 {
      var first := Stage(t, idx[0], idx[1], vals);
      var bs := StageBlocks(t, idx, vals);
      assert bs == [first] + StageBlocks(t, idx[1..], vals);
      assert bs[0] == first && bs[1..] == StageBlocks(t, idx[1..], vals);
      var rest := Stages(t, idx[1..], vals);
      assert Stages(t, idx, vals) == first + rest;
      StagesWeights(t, idx[1..], vals);
      StageWeights(t, idx[0], idx[1], vals);
      WeightsAppend(first, rest);
    }
  }

  /** The returned weight list is the input weights repeated once per stage, so every edge
      carries the weight of the row it came from. */
  lemma StackColsRepeatsWeights(t: Table, cols: seq<string>, vals: seq<Cell>)
    requires t.WellFormed() && |vals| == |t.rows|
    requires StackCols(t, cols, vals).Ok?
    ensures StackCols(t, cols, vals).value.values == Repeat(vals, |cols| - 1)
  {
    var idx := ColumnIndices(t.header, cols).value;
    var edges := Stages(t, idx, vals);
    assert StackCols(t, cols, vals) == Ok(Stacked(edges, Weights(edges)));
    StagesWeights(t, idx, vals);
  }

  /** Sorted with no repeats, in Python's string order. */
  predicate StrictlySorted(s: seq<string>) {
    forall i, j {:trigger Less(s[i], s[j])} :: 0 <= i < j < |s| ==> Less(s[i], s[j])
  }

  lemma SortedHeadBelow(s: seq<string>, x: string)
    requires StrictlySorted(s) && |s| > 0 && Less(x, s[0])
    ensures forall j :: 0 <= j < |s| ==> Less(x, s[j])
  {
    forall j | 0 < j < |s|
      ensures Less(x, s[j])
    {
      LessTransitive(x, s[0], s[j]);
    }
  }

  lemma SortedTailAbove(s: seq<string>, x: string, rest: seq<string>)
    requires StrictlySorted(s) && |s| > 0 && Less(s[0], x)
    requires forall y :: y in rest ==> y in s[1..] || y == x
    ensures forall j :: 0 <= j < |rest| ==> Less(s[0], rest[j])
  {
    forall j | 0 <= j < |rest|
      ensures Less(s[0], rest[j])
    {
      if rest[j] != x {
        assert rest[j] in s[1..];
        var k :| 0 <= k < |s[1..]| && s[1..][k] == rest[j];
        assert s[k + 1] == rest[j];
      }
    }
  }

  /** Adds one label to a sorted, repeat-free list of labels. */
  function InsertLabel(s: seq<string>, x: string): (r: seq<string>)
    requires StrictlySorted(s)
    ensures StrictlySorted(r)
    ensures forall y :: y in r <==> y in s || y == x
    decreases |s|
  {
    if |s| == 0 then [x]
    else if x == s[0] then s
    else if Less(x, s[0]) then
      SortedHeadBelow(s, x);
      [x] + s
    else
      LessTotal(x, s[0]);
      var rest := InsertLabel(s[1..], x);
      SortedTailAbove(s, x, rest);
      [s[0]] + rest
  }

  /** `sorted(set(xs))`. */
  function SortedLabels(xs: seq<string>): (r: seq<string>)
    ensures StrictlySorted(r)
    ensures forall y :: y in r <==> y in xs
    decreases |xs|
  {
    if |xs| == 0 then [] else InsertLabel(SortedLabels(xs[..|xs| - 1]), xs[|xs| - 1])
  }

  /** The first element of a sorted, repeat-free list occurs nowhere else in it. */
  lemma SortedHeadOnce(a: seq<string>)
    requires StrictlySorted(a) && |a| > 0
    ensures a[0] !in a[1..]
    ensures forall y :: y in a && y != a[0] ==> y in a[1..]
  {
    if a[0] in a[1..] {
      var p :| 0 <= p < |a[1..]| && a[1..][p] == a[0];
      assert Less(a[0], a[p + 1]);
      LessIrreflexive(a[0]);
    }
    assert a == [a[0]] + a[1..];
  }

  /** A sorted, repeat-free list is determined by its elements. */
  lemma {:induction false} SortedUnique(a: seq<string>, b: seq<string>)
    requires StrictlySorted(a) && StrictlySorted(b)
    requires forall y :: y in a <==> y in b
    ensures a == b
    decreases |a|
  {
    assert |a| == 0 <==> |b| == 0 by {
      if |a| > 0 {
        assert a[0] in b;
      }
      if |b| > 0 {
        assert b[0] in a;
      }
    }
    if |a| > 0 {
      assert a[0] in b;
      assert b[0] in a;
      var j :| 0 <= j < |b| && b[j] == a[0];
      var i :| 0 <= i < |a| && a[i] == b[0];
      if j > 0 {
        if i > 0 {
          assert Less(b[0], b[j]) && Less(a[0], a[i]);
          LessAsymmetric(b[0], a[0]);
        } else {
          assert Less(b[0], b[j]);
          LessIrreflexive(b[0]);
        }
      }
      assert a[0] == b[0];
      SortedHeadOnce(a);
      SortedHeadOnce(b);
      SortedUnique(a[1..], b[1..]);
      assert a == [a[0]] + a[1..] && b == [b[0]] + b[1..];
    }
  }

  /** `list(df[src]) + list(df[targ])`. */
  function Endpoints(edges: seq<Edge>): (r: seq<string>)
    ensures forall y :: y in r <==> exists i :: 0 <= i < |edges| && (edges[i].src == y || edges[i].targ == y)
  {
    var srcs := seq(|edges|, i requires 0 <= i < |edges| => edges[i].src);
    var targs := seq(|edges|, i requires 0 <= i < |edges| => edges[i].targ);
    assert forall i :: 0 <= i < |edges| ==> edges[i].src == srcs[i] && edges[i].targ == targs[i];
    srcs + targs
  }

  /** The recoded stacked frame: integer source and target columns and the sorted node labels. */
  datatype Coded = Coded(sources: seq<nat>, targets: seq<nat>, labels: seq<string>)

  /** The position of a label in the sorted label list; `dict(zip(labels, codes))[x]`. */
  function Code(labels: seq<string>, x: string): (c: nat)
    requires x in labels
    ensures c < |labels| && labels[c] == x
  {
    FirstIndex(labels, x)
  }

  /** `_code_mapping`: the sorted distinct labels of both columns, each endpoint replaced by its label's position. */
  function CodeMapping(edges: seq<Edge>): (r: Coded)
    ensures StrictlySorted(r.labels)
    ensures forall y :: y in r.labels <==> y in Endpoints(edges)
    ensures |r.sources| == |edges| && |r.targets| == |edges|
    ensures forall i :: 0 <= i < |edges| ==>
      && r.sources[i] < |r.labels| && r.labels[r.sources[i]] == edges[i].src
      && r.targets[i] < |r.labels| && r.labels[r.targets[i]] == edges[i].targ
  {
    var labels := SortedLabels(Endpoints(edges));
    assert forall i :: 0 <= i < |edges| ==> edges[i].src in labels && edges[i].targ in labels;
    Coded(seq(|edges|, i requires 0 <= i < |edges| => Code(labels, edges[i].src)),
          seq(|edges|, i requires 0 <= i < |edges| => Code(labels, edges[i].targ)),
          labels)
  }

  /** Two endpoints share a node index exactly when they carry the same label, whichever stage they come from. */
  lemma CodesIdentifyLabels(edges: seq<Edge>, i: nat, j: nat)
    requires i < |edges| && j < |edges|
    ensures var r := CodeMapping(edges);
      && (edges[i].src == edges[j].targ <==> r.sources[i] == r.targets[j])
      && (edges[i].src == edges[j].src <==> r.sources[i] == r.sources[j])
      && (edges[i].targ == edges[j].targ <==> r.targets[i] == r.targets[j])
  {
    var r := CodeMapping(edges);
    forall a: nat, b: nat | a < b < |r.labels|
      ensures r.labels[a] != r.labels[b]
    {
      LessIrreflexive(r.labels[a]);
    }
  }

  /** The node indices are exactly 0 .. N - 1: each one is used by some endpoint. */
  lemma CodesContiguous(edges: seq<Edge>, c: nat)
    requires c < |CodeMapping(edges).labels|
    ensures var r := CodeMapping(edges);
      exists i :: 0 <= i < |edges| && (r.sources[i] == c || r.targets[i] == c)
  {
    var r := CodeMapping(edges);
    assert r.labels[c] in Endpoints(edges);
    var i :| 0 <= i < |edges| && (edges[i].src == r.labels[c] || edges[i].targ == r.labels[c]);
    forall a: nat, b: nat | a < b < |r.labels|
      ensures r.labels[a] != r.labels[b]
    {
      LessIrreflexive(r.labels[a]);
    }
    assert r.sources[i] == c || r.targets[i] == c;
  }

  /** The node list depends only on which labels occur, not on the order or multiplicity of the edges. */
  lemma LabelsOrderIndependent(edges1: seq<Edge>, edges2: seq<Edge>)
    requires forall y :: y in Endpoints(edges1) <==> y in Endpoints(edges2)
    ensures CodeMapping(edges1).labels == CodeMapping(edges2).labels
  {
    SortedUnique(CodeMapping(edges1).labels, CodeMapping(edges2).labels);
  }

  /** The link and node lists handed to `go.Sankey`. */
  datatype SankeyGraph = SankeyGraph(sources: seq<nat>, targets: seq<nat>, values: seq<Cell>, labels: seq<string>)

  predicate Unweighted(weightCol: Option<string>) {
    weightCol.None? || weightCol.value == ""
  }

  /** The weight of each row: the named column when `vals` is given and non-empty, otherwise 1. */
  function RowWeights(t: Table, weightCol: Option<string>): (r: Result<seq<Cell>>)
    requires t.WellFormed()
    ensures r.Ok? <==> Unweighted(weightCol) || weightCol.value in t.header
    ensures r.Err? ==> r.error == MissingColumn(weightCol.value)
    ensures r.Ok? ==> |r.value| == |t.rows|
    ensures r.Ok? && Unweighted(weightCol) ==> forall i :: 0 <= i < |r.value| ==> r.value[i] == Number(1)
    ensures r.Ok? && !Unweighted(weightCol) ==>
      forall i :: 0 <= i < |r.value| ==> r.value[i] == t.rows[i][FirstIndex(t.header, weightCol.value)]
  {
    if Unweighted(weightCol) then Ok(seq(|t.rows|, _ => Number(1)))
    else
      match ColumnIndex(t.header, weightCol.value)
      case None => Err(MissingColumn(weightCol.value))
      case Some(wi) => Ok(seq(|t.rows|, i requires 0 <= i < |t.rows| => t.rows[i][wi]))
  }

  /** `make_sankey` without the figure: stacked edges coded as node indices, with their weights. */
  function MakeSankey(t: Table, cols: seq<string>, weightCol: Option<string>): (r: Result<SankeyGraph>)
    requires t.WellFormed()
    ensures r.Ok? <==>
      && (Unweighted(weightCol) || weightCol.value in t.header)
      && |cols| >= 2
      && (forall j :: 0 <= j < |cols| ==> cols[j] in t.header)
    ensures r.Ok? ==>
      && |r.value.sources| == (|cols| - 1) * |t.rows|
      && |r.value.targets| == |r.value.sources|
      && |r.value.values| == |r.value.sources|
    ensures r.Ok? ==> StrictlySorted(r.value.labels)
    ensures r.Ok? ==> forall i :: 0 <= i < |r.value.sources| ==>
      r.value.sources[i] < |r.value.labels| && r.value.targets[i] < |r.value.labels|
    ensures r.Ok? && Unweighted(weightCol) ==> forall i :: 0 <= i < |r.value.values| ==> r.value.values[i] == Number(1)
  {
    match RowWeights(t, weightCol)
    case Err(e) => Err(e)
    case Ok(weights) =>
      match StackCols(t, cols, weights)
      case Err(e) => Err(e)
      case Ok(stacked) =>
        StackColsRepeatsWeights(t, cols, weights);
        var coded := CodeMapping(stacked.edges);
        Ok(SankeyGraph(coded.sources, coded.targets, stacked.values, coded.labels))
  }

  /** Link Offset(i, n) + r of the diagram runs from the node of row r's text in column i to the node
      of its text in column i + 1, and carries row r's weight. */
  lemma MakeSankeyLinkAt(t: Table, cols: seq<string>, weightCol: Option<string>, d: SankeyGraph, i: nat, r: nat)
    requires t.WellFormed()
    requires MakeSankey(t, cols, weightCol) == Ok(d)
    requires i < |cols| - 1 && r < |t.rows|
    ensures var e := Offset(i, |t.rows|) + r;
      && e < |d.sources|
      && d.labels[d.sources[e]] == Label(t.rows[r][FirstIndex(t.header, cols[i])])
      && d.labels[d.targets[e]] == Label(t.rows[r][FirstIndex(t.header, cols[i + 1])])
      && d.values[e] == if Unweighted(weightCol) then Number(1) else t.rows[r][FirstIndex(t.header, weightCol.value)]
  {
    var weights := RowWeights(t, weightCol).value;
    StackColsEdgeAt(t, cols, weights, i, r);
  }

  /** Every node of the diagram is the source or the target of some link: together with the
      in-range link indices, the node list is exactly the set of link endpoints. */
  lemma MakeSankeyNodesUsed(t: Table, cols: seq<string>, weightCol: Option<string>, d: SankeyGraph, c: nat)
    requires t.WellFormed()
    requires MakeSankey(t, cols, weightCol) == Ok(d)
    requires c < |d.labels|
    ensures exists e :: 0 <= e < |d.sources| && (d.sources[e] == c || d.targets[e] == c)
  {
    var weights := RowWeights(t, weightCol).value;
    var stacked := StackCols(t, cols, weights).value;
    CodesContiguous(stacked.edges, c);
  }
}

=== FILE: seqs.dfy ===
/** Sequence operations the pipeline is built from: pandas boolean-mask filtering,
    `unique()`, first-occurrence lookup, and occurrence counting. */
module Seqs {

  /** No element occurs twice. */
  predicate NoDup<T(==)>(s: seq<T>) {
    forall i, j :: 0 <= i < j < |s| ==> s[i] != s[j]
  }

  /** Position of the first occurrence of `x`. */
  function FirstIndex<T(==)>(s: seq<T>, x: T): (i: nat)
    requires x in s
    ensures i < |s| && s[i] == x && x !in s[..i]
  {
    if s[0] == x then 0
    else
      var j := FirstIndex(s[1..], x);
      assert s[..j + 1] == [s[0]] + s[1..][..j];
      1 + j
  }

  /** The first occurrence is the only position holding `x` with no earlier `x`. */
  lemma FirstIndexUnique<T>(s: seq<T>, x: T, i: nat)
    requires i < |s| && s[i] == x && x !in s[..i]
    ensures FirstIndex(s, x) == i
  {
  }

  /** Cutting off a tail that starts after an element's first occurrence does not move it. */
  lemma FirstIndexOfPrefix<T>(s: seq<T>, k: nat)
    requires k <= |s|
    ensures forall x :: x in s[..k] ==> FirstIndex(s[..k], x) == FirstIndex(s, x)
  {
    forall x | x in s[..k]
      ensures FirstIndex(s[..k], x) == FirstIndex(s, x)
    {
      var i := FirstIndex(s[..k], x);
      assert s[..k][..i] == s[..i];
      FirstIndexUnique(s, x, i);
    }
  }

  /** Boolean-mask selection `s[p(s)]`: the elements satisfying `p`, in their original order. */
  function Filter<T>(s: seq<T>, p: T -> bool): (r: seq<T>)
    ensures |r| <= |s|
    ensures forall i :: 0 <= i < |r| ==> p(r[i]) && r[i] in s
    decreases |s|
  {
    if |s| == 0 then [] else (if p(s[0]) then [s[0]] else []) + Filter(s[1..], p)
  }

  /** Filtering keeps every occurrence of a value that passes and none of one that fails. */
  lemma {:induction false} FilterMultiplicity<T>(s: seq<T>, p: T -> bool, x: T)
    ensures multiset(Filter(s, p))[x] == if p(x) then multiset(s)[x] else 0
    decreases |s|
  {
    if |s| > 0 {
      assert s == [s[0]] + s[1..];
      FilterMultiplicity(s[1..], p, x);
    }
  }

  /** `a` is `b` with some elements deleted. */
  ghost predicate IsSubseq<T>(a: seq<T>, b: seq<T>)
    decreases |b|
  {
    |a| == 0 || (|b| > 0 && ((a[0] == b[0] && IsSubseq(a[1..], b[1..])) || IsSubseq(a, b[1..])))
  }

  lemma {:induction false} FilterIsSubseq<T>(s: seq<T>, p: T -> bool)
    ensures IsSubseq(Filter(s, p), s)
    decreases |s|
  {
    if |s| > 0 {
      FilterIsSubseq(s[1..], p);
      var r := Filter(s, p);
      if p(s[0]) {
        assert r[0] == s[0] && r[1..] == Filter(s[1..], p);
      } else {
        assert r == Filter(s[1..], p);
      }
    }
  }

  /** Filtering twice by the same predicate is filtering once. */
  lemma {:induction false} FilterIdempotent<T>(s: seq<T>, p: T -> bool)
    ensures Filter(Filter(s, p), p) == Filter(s, p)
    decreases |s|
  {
    if |s| > 0 {
      FilterIdempotent(s[1..], p);
      var r := Filter(s, p);
      if p(s[0]) {
        assert r == [s[0]] + Filter(s[1..], p);
        assert r[0] == s[0] && r[1..] == Filter(s[1..], p);
        assert Filter(r, p) == [s[0]] + Filter(r[1..], p);
      } else {
        assert r == Filter(s[1..], p);
      }
    }
  }

  /** Nothing is removed when every element passes. */
  lemma {:induction false} FilterAll<T>(s: seq<T>, p: T -> bool)
    requires forall i :: 0 <= i < |s| ==> p(s[i])
    ensures Filter(s, p) == s
    decreases |s|
  {
    if |s| > 0 {
      FilterAll(s[1..], p);
    }
  }

  /** When nothing passes, nothing is kept. */
  lemma {:induction false} FilterNone<T>(s: seq<T>, p: T -> bool)
    requires forall i :: 0 <= i < |s| ==> !p(s[i])
    ensures Filter(s, p) == []
    decreases |s|
  {
    if |s| > 0 {
      FilterNone(s[1..], p);
    }
  }

  /** Filtering by `p` and then by `q` is filtering by their conjunction. */
  lemma {:induction false} FilterThenFilter<T>(s: seq<T>, p: T -> bool, q: T -> bool, pq: T -> bool)
    requires forall x :: pq(x) == (p(x) && q(x))
    ensures Filter(Filter(s, p), q) == Filter(s, pq)
    decreases |s|
  {
    if |s| > 0 {
      FilterThenFilter(s[1..], p, q, pq);
      var r := Filter(s, p);
      if p(s[0]) {
        assert r == [s[0]] + Filter(s[1..], p);
        assert r[0] == s[0] && r[1..] == Filter(s[1..], p);
        assert Filter(r, q) == (if q(s[0]) then [s[0]] else []) + Filter(r[1..], q);
      } else {
        assert r == Filter(s[1..], p);
      }
    }
  }

  /** pandas `unique()`: each distinct value once, in order of first appearance. */
  function Dedup<T(==)>(s: seq<T>): (r: seq<T>)
    ensures NoDup(r)
    ensures forall i :: 0 <= i < |r| ==> r[i] in s
    ensures forall i :: 0 <= i < |s| ==> s[i] in r
    ensures forall i, j :: 0 <= i < j < |r| ==> FirstIndex(s, r[i]) < FirstIndex(s, r[j])
    decreases |s|
  {
    if |s| == 0 then []
    else
      var init := s[..|s| - 1];
      var d := Dedup(init);
      var last := s[|s| - 1];
      assert s == init + [last];
      FirstIndexOfPrefix(s, |s| - 1);
      if last in d then d
      else
        FirstIndexUnique(s, last, |s| - 1);
        d + [last]
  }

  /** The positions at which a value occurs for the first time, in increasing order. */
  function FirstAppearances<T(==)>(s: seq<T>): (ps: seq<nat>)
    ensures forall k :: 0 <= k < |ps| ==> ps[k] < |s|
    decreases |s|
  {
    if |s| == 0 then []
    else
      var init := s[..|s| - 1];
      FirstAppearances(init) + (if s[|s| - 1] in init then [] else [|s| - 1])
  }

  /** A position is listed exactly when its value does not occur earlier. */
  lemma {:induction false} FirstAppearancesExact<T>(s: seq<T>, a: nat)
    requires a < |s|
    ensures a in FirstAppearances(s) <==> s[a] !in s[..a]
    decreases |s|
  {
    var init := s[..|s| - 1];
    var ps := FirstAppearances(init);
    assert FirstAppearances(s) == ps + (if s[|s| - 1] in init then [] else [|s| - 1]);
    if a < |s| - 1 {
      FirstAppearancesExact(init, a);
      assert init[..a] == s[..a];
    } else {
      assert s[..a] == init;
    }
  }

  /** The positions are listed in increasing order. */
  lemma {:induction false} FirstAppearancesIncreasing<T>(s: seq<T>)
    ensures forall k, l :: 0 <= k < l < |FirstAppearances(s)| ==> FirstAppearances(s)[k] < FirstAppearances(s)[l]
    decreases |s|
  {
    if |s| > 0 {
      var init := s[..|s| - 1];
      FirstAppearancesIncreasing(init);
    }
  }

  /** `unique()` lists the values found at the first-appearance positions, in that order. */
  lemma {:induction false} DedupAtFirstAppearances<T>(s: seq<T>)
    ensures |Dedup(s)| == |FirstAppearances(s)|
    ensures forall k :: 0 <= k < |Dedup(s)| ==> Dedup(s)[k] == s[FirstAppearances(s)[k]]
    decreases |s|
  {
    if |s| > 0 {
      var init := s[..|s| - 1];
      var last := s[|s| - 1];
      DedupAtFirstAppearances(init);
      var d := Dedup(init);
      var ps := FirstAppearances(init);
      assert forall k :: 0 <= k < |ps| ==> s[ps[k]] == init[ps[k]];
      assert last in d <==> last in init;
    }
  }

  /** A duplicate-free sequence has as many elements as its set. */
  lemma {:induction false} NoDupCardinality<T>(s: seq<T>)
    requires NoDup(s)
    ensures |set x | x in s| == |s|
    decreases |s|
  {
    if |s| > 0 {
      NoDupCardinality(s[1..]);
      assert (set x | x in s) == (set x | x in s[1..]) + {s[0]};
      assert s[0] !in s[1..];
    }
  }

  lemma {:induction false} NoDupAtMostOnce<T>(s: seq<T>, x: T)
    requires NoDup(s)
    ensures multiset(s)[x] <= 1
    decreases |s|
  {
    if |s| > 0 {
      assert s == [s[0]] + s[1..];
      NoDupAtMostOnce(s[1..], x);
      if x == s[0] {
        assert x !in s[1..];
      }
    }
  }

  lemma RepeatedTwice<T>(s: seq<T>, i: nat, j: nat)
    requires i < j < |s| && s[i] == s[j]
    ensures multiset(s)[s[i]] >= 2
  {
    assert s == s[..i] + [s[i]] + s[i + 1..j] + [s[j]] + s[j + 1..];
  }

  /** A rearrangement of a duplicate-free sequence is duplicate-free. */
  lemma PermutationNoDup<T>(a: seq<T>, b: seq<T>)
    requires multiset(a) == multiset(b) && NoDup(a)
    ensures NoDup(b)
  {
    forall i, j | 0 <= i < j < |b|
      ensures b[i] != b[j]
    {
      if b[i] == b[j] {
        RepeatedTwice(b, i, j);
        NoDupAtMostOnce(a, b[i]);
      }
    }
  }

  /** How many elements of `s` belong to `ks`. */
  function CountIn<T(==)>(s: seq<T>, ks: seq<T>): (n: nat)
    ensures n <= |s|
    ensures (forall i :: 0 <= i < |s| ==> s[i] in ks) ==> n == |s|
    decreases |s|
  {
    if |s| == 0 then 0 else (if s[0] in ks then 1 else 0) + CountIn(s[1..], ks)
  }

  /** The occurrences in `s` of each element of `ks`, added up. */
  function Occurrences<T(==)>(s: seq<T>, ks: seq<T>): nat
    decreases |ks|
  {
    if |ks| == 0 then 0 else multiset(s)[ks[0]] + Occurrences(s, ks[1..])
  }

  lemma {:induction false} CountInCons<T>(s: seq<T>, k: T, ks: seq<T>)
    requires k !in ks
    ensures CountIn(s, [k] + ks) == multiset(s)[k] + CountIn(s, ks)
    decreases |s|
  {
    if |s| > 0 {
      assert s == [s[0]] + s[1..];
      CountInCons(s[1..], k, ks);
    }
  }

  /** Counting each of several distinct values separately counts every element in them exactly once. */
  lemma {:induction false} OccurrencesOfDistinct<T>(s: seq<T>, ks: seq<T>)
    requires NoDup(ks)
    ensures Occurrences(s, ks) == CountIn(s, ks)
    decreases |ks|
  {
    if |ks| == 0 {
      CountInNone(s, ks);
    } else {
      assert ks == [ks[0]] + ks[1..];
      OccurrencesOfDistinct(s, ks[1..]);
      CountInCons(s, ks[0], ks[1..]);
    }
  }

  lemma {:induction false} CountInNone<T>(s: seq<T>, ks: seq<T>)
    requires |ks| == 0
    ensures CountIn(s, ks) == 0
    decreases |s|
  {
    if |s| > 0 {
      CountInNone(s[1..], ks);
    }
  }
}

=== FILE: strings.dfy ===
/** Python's string order and the decimal conversions `str(int)` and `int(str)`. */
module Strings {
  import opened Results

  /** Python's `<` on `str`: lexicographic by code point, a proper prefix first. */
  predicate Less(a: string, b: string)
    decreases |a|
  {
    if |a| == 0 then |b| > 0
    else if |b| == 0 then false
    else if a[0] != b[0] then a[0] < b[0]
    else Less(a[1..], b[1..])
  }

  lemma {:induction false} LessIrreflexive(a: string)
    ensures !Less(a, a)
    decreases |a|
  {
    if |a| > 0 {
      LessIrreflexive(a[1..]);
    }
  }

  lemma {:induction false} LessTransitive(a: string, b: string, c: string)
    requires Less(a, b) && Less(b, c)
    ensures Less(a, c)
    decreases |a|
  {
    if |a| > 0 && |b| > 0 && |c| > 0 && a[0] == b[0] && b[0] == c[0] {
      LessTransitive(a[1..], b[1..], c[1..]);
    }
  }

  /** Any two different strings are ordered one way or the other. */
  lemma {:induction false} LessTotal(a: string, b: string)
    requires a != b
    ensures Less(a, b) || Less(b, a)
    decreases |a|
  {
    if |a| > 0 && |b| > 0 && a[0] == b[0] {
      assert a == [a[0]] + a[1..] && b == [b[0]] + b[1..];
      LessTotal(a[1..], b[1..]);
    }
  }

  lemma LessAsymmetric(a: string, b: string)
    requires Less(a, b)
    ensures !Less(b, a)
  {
    if Less(b, a) {
      LessTransitive(a, b, a);
      LessIrreflexive(a);
    }
  }

  predicate IsDigit(c: char) {
    '0' <= c <= '9'
  }

  predicate AllDigits(s: string) {
    forall i :: 0 <= i < |s| ==> IsDigit(s[i])
  }

  function DigitChar(d: nat): (c: char)
    requires d < 10
    ensures IsDigit(c)
  {
    (d + '0' as int) as char
  }

  function DigitValue(c: char): (d: nat)
    requires IsDigit(c)
    ensures d < 10
  {
    c as int - '0' as int
  }

  /** `str(n)` for a non-negative integer: its decimal digits, most significant first. */
  function NatToString(n: nat): (s: string)
    ensures |s| > 0 && AllDigits(s)
    ensures n == 0 ==> s == "0"
    ensures n > 0 ==> s[0] != '0'
    decreases n
  {
    if n < 10 then [DigitChar(n)] else NatToString(n / 10) + [DigitChar(n % 10)]
  }

  /** The number a string of decimal digits denotes. */
  function DigitsValue(s: string): nat
    requires AllDigits(s)
    decreases |s|
  {
    if |s| == 0 then 0 else DigitsValue(s[..|s| - 1]) * 10 + DigitValue(s[|s| - 1])
  }

  lemma {:induction false} DigitsRoundTrip(n: nat)
    ensures DigitsValue(NatToString(n)) == n
    decreases n
  {
    if n >= 10 {
      var s := NatToString(n);
      assert s[..|s| - 1] == NatToString(n / 10);
      DigitsRoundTrip(n / 10);
    }
  }

  /** `str(n)` for any integer: a minus sign exactly for negatives, then the digits of the
      magnitude with no leading zero. */
  function IntToString(n: int): (s: string)
    ensures |s| > 0
    ensures n >= 0 <==> AllDigits(s)
    ensures n < 0 <==> s[0] == '-'
    ensures n < 0 ==> |s| > 1 && AllDigits(s[1..]) && s[1] != '0'
    ensures s[0] == '0' ==> s == "0"
  {
    if n < 0 then
      var digits := NatToString(-n);
      assert ("-" + digits)[1..] == digits;
      assert !IsDigit(("-" + digits)[0]);
      "-" + digits
    else NatToString(n)
  }

  /** The text `int()` accepts here: one or more decimal digits, possibly after one sign. */
  predicate IntLiteral(s: string) {
    var digits := if |s| > 0 && s[0] in "+-" then s[1..] else s;
    |digits| > 0 && AllDigits(digits)
  }

  /** `int(s)`: an optional sign followed by one or more decimal digits; anything else is refused. */
  function ParseInt(s: string): (r: Option<int>)
    ensures r.Some? <==> IntLiteral(s)
    ensures r.Some? && r.value < 0 ==> s[0] == '-'
  {
    if |s| > 0 && (s[0] == '+' || s[0] == '-') then
      var body := s[1..];
      if |body| > 0 && AllDigits(body) then
        var magnitude: int := DigitsValue(body);
        Some(if s[0] == '-' then -magnitude else magnitude)
      else None
    else if |s| > 0 && AllDigits(s) then Some(DigitsValue(s))
    else None
  }

  /** Reading back the decimal text of any integer gives that integer. */
  lemma IntRoundTrip(n: int)
    ensures ParseInt(IntToString(n)) == Some(n)
  {
    if n < 0 {
      var d := NatToString(-n);
      assert IntToString(n) == "-" + d;
      NatRoundTrip(-n);
      ParseIntMinus(d);
    } else {
      assert IntToString(n) == NatToString(n);
      NatRoundTrip(n);
    }
  }

  /** Reading back the decimal text of a natural number gives that number. */
  lemma NatRoundTrip(n: nat)
    ensures ParseInt(NatToString(n)) == Some(n)
  {
    var s := NatToString(n);
    assert IsDigit(s[0]);
    DigitsRoundTrip(n);
    assert ParseInt(s) == Some(DigitsValue(s));
  }

  /** A zero written in front of a digit string does not change its value. */
  lemma {:induction false} DigitsLeadingZero(s: string)
    requires AllDigits(s)
    ensures AllDigits("0" + s) && DigitsValue("0" + s) == DigitsValue(s)
    decreases |s|
  {
    var z := "0" + s;
    assert IsDigit(z[0]);
    if |s| == 0 {
      assert z[..0] == [];
    } else {
      assert z[..|z| - 1] == "0" + s[..|s| - 1];
      DigitsLeadingZero(s[..|s| - 1]);
    }
  }

  /** `int()` ignores leading zeros: `int("007") == int("7")`. */
  lemma ParseIntLeadingZero(s: string)
    requires |s| > 0 && AllDigits(s)
    ensures ParseInt("0" + s) == ParseInt(s)
  {
    DigitsLeadingZero(s);
    assert IsDigit(s[0]);
  }

  /** `int()` reads a leading `+` as no sign: `int("+7") == int("7")`. */
  lemma ParseIntPlus(s: string)
    requires |s| > 0 && AllDigits(s)
    ensures ParseInt("+" + s) == ParseInt(s)
  {
    assert ("+" + s)[1..] == s;
    assert IsDigit(s[0]);
  }

  /** `int()` reads a leading `-` as negation: `int("-05") == -int("05")`. */
  lemma ParseIntMinus(s: string)
    requires |s| > 0 && AllDigits(s)
    ensures ParseInt(s).Some? && ParseInt("-" + s) == Some(-ParseInt(s).value)
  {
    assert ("-" + s)[1..] == s;
    assert IsDigit(s[0]);
  }
}
